=== FILE: README.md ===
# PaymentHandler cash settlement, in Dafny

A model of the coin-payment core of the self-checkout station's `PaymentHandler`. It covers:

- the payment reconciliation `processPaymentWithCoins`:
  - it sums the tendered coins;
  - it records `amountSpent` and `changeRemaining`;
  - it offers every coin to `acceptInsertedCoin`;
  - it takes each coin reported as not accepted off the total;
  - it then settles the payment as underpaid, exact or overpaid;
- the change maker `dispenseAccurateChange`;
- the inventory operations `loadCoinDispenser` and `emptyCoinStorage`;
- the getter `getChangeRemaining`.

Amounts are integer cents. The station hardware is reduced to the state the handler touches:

- one dispenser per denomination, each with a count and a capacity;
- the coin storage unit's count and capacity;
- the coin slot's enabled flag.

Every operation that can throw is a pure function from a state to an `Outcome`; `emptyCoinStorage`, which cannot, returns the new station, and `getChangeRemaining` returns the amount. An `Outcome` is either `Done(state, value)` or `Raised(state, fault)`. A raised fault keeps the state reached at the throw, because the Java code never rolls anything back. Java `null` is the `Nullable` datatype.

The source has two evident faults, listed under Findings. A `Revision` parameter selects between the code as written (`AsWritten`) and the evidently intended behaviour (`Corrected`):

- the acceptor answers "not accepted" on every path;
- the greedy pass stops after the first denomination it uses.

This also makes the reconciliation logic a function of the acceptor's answer, so its decision is exercised under both acceptors.

Modules:

- `Common`: null, faults, outcomes and revisions.
- `Money`: coins, sums, and the descending view of the denominations.
- `Hardware`: station state, and the slot, storage and dispenser primitives.
- `CoinAcceptor`: `acceptInsertedCoin` and the acceptance loop.
- `ChangeDispenser`: `dispenseAccurateChange`, both as a recursive function and statement for statement as a loop.
- `Inventory`: `loadCoinDispenser` and `emptyCoinStorage`.
- `PaymentHandler`: `processPaymentWithCoins` and `getChangeRemaining`.
- `Scenarios`: concrete cases on stations with denominations 25, 10, 5 and 1 cents, configured out of order.

Where the code's own comments and handlers promise more than its statements do, the model follows the statements:

- **Unknown denomination in `loadCoinDispenser`.** The catch at lines 156-157 turns a simulation fault into a `ComponentFailure` with the message "This coin type does not exist". In the code, though, the map lookup at line 153 yields null for such a coin. The resulting `NullPointerException` is not a `SimulationException`, so that catch never sees it, and the model raises `NullPointer`.
- **Acceptance.** The doc comment of `acceptInsertedCoin` (line 85) promises true when the coin is accepted. The method returns false on every path (line 95).
- **Change of 30 from 25s and 5s.** The doc comment of `dispenseAccurateChange` (line 104) promises true when correct change is dispensed, and the `for` loop at lines 123-131 walks every denomination. But the assignment `i = coinDenominations.size()` at line 129 ends the loop after the 25s, so the call fails.
- **`changeRemaining`.** It is never updated after line 60. It keeps reporting the tendered sum less the total cost, even after change has been dispensed.
- **Change below the smallest coin.** One smallest coin is emitted. `amountDispensed` is then recorded as the change owed, not as the coin's face value.

## Model

Every row cites `PaymentHandler.java`, the one source file of the core.

| member | source | states |
|---|---|---|
| PaymentHandler.ProcessPaymentWithCoins | com.thelocalmarketplace.software/src/com/thelocalmarketplace/software/PaymentHandler.java:52-60 | A null list, or a null coin met while summing, is a null pointer fault that changes nothing. Otherwise the payment proceeds with the unwrapped coins, and `getChangeRemaining` afterwards reports their total value less the total cost, whatever the outcome. |
| PaymentHandler.Tender | com.thelocalmarketplace.software/src/com/thelocalmarketplace/software/PaymentHandler.java:54-78 | After a non-null payment, `changeRemaining` is the tendered value less the total cost, the total cost is unchanged, and the station stays within its capacities. By the accepted total: an acceptance fault propagates with `amountSpent` at the tendered sum. Below the cost: false, `amountSpent` stays the tendered sum. Equal: true, `amountSpent` is the cost. In these three cases the station is exactly the one the acceptance loop left, so coins received into storage stay there and no dispenser is touched. Above: `amountSpent` is the cost and the result is that of dispensing the excess from the station the acceptance loop left. |
| PaymentHandler.Settle | com.thelocalmarketplace.software/src/com/thelocalmarketplace/software/PaymentHandler.java:69-78 | Given the accepted total and the station the acceptance loop left: underpaid, false and nothing changes. Exact: true, `amountSpent` becomes the cost, the station is untouched. Overpaid: `amountSpent` becomes the cost; the result is true exactly when dispensing the excess leaves nothing owed; the only fault is no cash available. Success implies the accepted total covers the cost. |
| PaymentHandler.AsWrittenAcceptsNothing | com.thelocalmarketplace.software/src/com/thelocalmarketplace/software/PaymentHandler.java:64-66 | Because the acceptor always answers false, every coin's value is taken off, and the accepted total ends at 0 whatever was tendered. |
| PaymentHandler.CorrectedAcceptsReceived | com.thelocalmarketplace.software/src/com/thelocalmarketplace/software/PaymentHandler.java:64-66 | With an acceptor that answers true on receipt, the accepted total is the value of the coins storage had room for. With room for all and an enabled slot, it is the whole tendered sum. |
| PaymentHandler.AsWrittenPayment | com.thelocalmarketplace.software/src/com/thelocalmarketplace/software/PaymentHandler.java:63-78 | As written, with the slot enabled or storage full: a positive cost always fails, with `amountSpent` at the tendered sum. A zero cost (the handler's only value) always succeeds without dispensing. For a negative cost only `amountSpent` is fixed, at the cost. |
| PaymentHandler.AsWrittenKeepsCoins | com.thelocalmarketplace.software/src/com/thelocalmarketplace/software/PaymentHandler.java:89-95 | As written, a payment against a positive cost fails although storage received every coin, and no dispenser is touched. |
| PaymentHandler.CorrectedPaysExactly | com.thelocalmarketplace.software/src/com/thelocalmarketplace/software/PaymentHandler.java:69-78 | With the corrected acceptor, coins worth exactly the cost pay it. The result is true, `amountSpent` is the cost, every coin is in storage and no change is dispensed. |
| PaymentHandler.ChangeRemainingStale | com.thelocalmarketplace.software/src/com/thelocalmarketplace/software/PaymentHandler.java:39-41 | With the corrected acceptor and room for every coin, an overpayment succeeds exactly when dispensing its excess leaves nothing owed, and either way `getChangeRemaining` still reports the whole positive excess afterwards. |
| CoinAcceptor.AcceptInsertedCoin | com.thelocalmarketplace.software/src/com/thelocalmarketplace/software/PaymentHandler.java:89-96 | Never answers "accepted". With space and an enabled slot, the coin goes to storage (count +1, within capacity) and the slot stays enabled. With space and a disabled slot, the disabled fault with nothing changed. Without space, the slot becomes disabled and the storage count is kept. Only the storage count and the slot flag ever change. |
| CoinAcceptor.AcceptCoinCorrected | com.thelocalmarketplace.software/src/com/thelocalmarketplace/software/PaymentHandler.java:81-96 | As the doc comment promises: the same effects and faults as the acceptor as written, answering true exactly when the coin was received into storage. |
| CoinAcceptor.AcceptAll | com.thelocalmarketplace.software/src/com/thelocalmarketplace/software/PaymentHandler.java:64-67 | The acceptance loop never touches a dispenser or the configured denominations. As written, every coin's value comes off the total, whatever happened to the coin. |
| CoinAcceptor.AcceptAllClosedForm | com.thelocalmarketplace.software/src/com/thelocalmarketplace/software/PaymentHandler.java:64-67 | With `free` places left in storage, the first `min(n, free)` coins are received, and the slot is disabled iff coins are left over. A disabled slot with room faults on the first coin, leaving everything unchanged. As written all values come off the total; corrected, only those not received. |
| ChangeDispenser.DispenseAccurateChange | com.thelocalmarketplace.software/src/com/thelocalmarketplace/software/PaymentHandler.java:109-134 | `amountDispensed + remainingAmount` is the change value. The result is true iff nothing remains. Each dispenser's count drops by exactly the number of its coins emitted, so no count goes negative and no other part of the station changes. |
| ChangeDispenser.DispenseEdgeCases | com.thelocalmarketplace.software/src/com/thelocalmarketplace/software/PaymentHandler.java:116-122 | Zero change: true, nothing emitted. Negative change: false, nothing emitted. Positive change below every denomination: one smallest coin emitted and true, or a no-cash fault with nothing changed when that dispenser is empty. |
| ChangeDispenser.ShortcutEmits | com.thelocalmarketplace.software/src/com/thelocalmarketplace/software/PaymentHandler.java:117-122 | Below the smallest coin, a fault emits nothing and a success emits exactly one smallest coin. |
| ChangeDispenser.GreedyEmits | com.thelocalmarketplace.software/src/com/thelocalmarketplace/software/PaymentHandler.java:123-131 | Once some denomination fits, every emitted coin is a configured denomination, and `amountDispensed` is exactly the face value emitted. |
| ChangeDispenser.DispenseEmitsConfigured | com.thelocalmarketplace.software/src/com/thelocalmarketplace/software/PaymentHandler.java:116-131 | Every coin emitted on any path is of a configured denomination. |
| ChangeDispenser.DispenseEmitsValue | com.thelocalmarketplace.software/src/com/thelocalmarketplace/software/PaymentHandler.java:110-133 | Outside the shortcut, the coins emitted are worth `amountDispensed`, and on success exactly the change. On any success they are worth at least the change. |
| ChangeDispenser.Drain | com.thelocalmarketplace.software/src/com/thelocalmarketplace/software/PaymentHandler.java:125-129 | The inner `while` takes one dispenser unit per coin it emits, and changes nothing else. It emits something iff the coin fits and has stock. It stops with the coin unusable, and the remainder never increases or goes below zero. |
| ChangeDispenser.DrainEmitsOnly | com.thelocalmarketplace.software/src/com/thelocalmarketplace/software/PaymentHandler.java:125-128 | The inner `while` emits coins of its own denomination only. |
| ChangeDispenser.DrainClosedForm | com.thelocalmarketplace.software/src/com/thelocalmarketplace/software/PaymentHandler.java:125-129 | The inner `while` emits exactly `min(remaining / d, stock)` coins of `d`, and the stock drops by as many. |
| ChangeDispenser.GreedyAsWritten | com.thelocalmarketplace.software/src/com/thelocalmarketplace/software/PaymentHandler.java:123-131 | As written, all coins of a pass share one denomination drawn from the list, and the stock is conserved. The pass changes nothing iff no denomination is usable. |
| ChangeDispenser.AsWrittenDrainsLargest | com.thelocalmarketplace.software/src/com/thelocalmarketplace/software/PaymentHandler.java:123-131 | Visiting a descending list, the as-written pass is exactly draining the largest usable denomination. |
| ChangeDispenser.AsWrittenOneDenomination | com.thelocalmarketplace.software/src/com/thelocalmarketplace/software/PaymentHandler.java:123-131 | Whatever the change, the as-written call never mixes denominations among the coins it emits. |
| ChangeDispenser.AsWrittenOutcome | com.thelocalmarketplace.software/src/com/thelocalmarketplace/software/PaymentHandler.java:123-133 | Beyond the shortcut with nothing usable: nothing emitted, false. Otherwise with `d` the largest usable denomination: exactly `min(change / d, stock)` coins of `d`, and true iff `d` divides the change and its stock covers it. |
| ChangeDispenser.AsWrittenLeavesRest | com.thelocalmarketplace.software/src/com/thelocalmarketplace/software/PaymentHandler.java:123-133 | Beyond the shortcut, with `d` the largest usable denomination, the as-written call still owes the change less the `d` coins it emitted, and every other dispenser keeps its stock. |
| ChangeDispenser.DrainFromStart | com.thelocalmarketplace.software/src/com/thelocalmarketplace/software/PaymentHandler.java:125-133 | Draining `d` from the full change emits `min(change / d, stock)` copies of `d`. It leaves nothing owed iff `d` divides the change and the stock covers the quotient. |
| ChangeDispenser.GreedyFull | com.thelocalmarketplace.software/src/com/thelocalmarketplace/software/PaymentHandler.java:123-131 | The pass as intended, without the early exit, conserves stock and value and emits only listed denominations. It ends with no listed denomination usable. |
| ChangeDispenser.CorrectedIsMaximal | com.thelocalmarketplace.software/src/com/thelocalmarketplace/software/PaymentHandler.java:123-131 | Corrected, the call only gives up when every denomination is larger than what is owed or has an empty dispenser. |
| ChangeDispenser.CorrectedSettlesWithUnitCoins | com.thelocalmarketplace.software/src/com/thelocalmarketplace/software/PaymentHandler.java:123-133 | Corrected, a positive change is paid exactly whenever the 1-cent dispenser alone could cover it. |
| ChangeDispenser.DescendingView | com.thelocalmarketplace.software/src/com/thelocalmarketplace/software/PaymentHandler.java:112-117 | The visiting order holds exactly the configured denominations, each with a dispenser and a positive value, and its last element is the smallest of them. |
| Money.SortDescending | com.thelocalmarketplace.software/src/com/thelocalmarketplace/software/PaymentHandler.java:113-114 | Sorting ascending and then reversing yields a non-increasing permutation of the list. |
| ChangeDispenser.InnerWhile | com.thelocalmarketplace.software/src/com/thelocalmarketplace/software/PaymentHandler.java:125-130 | The inner `while` statement for statement computes `Drain`. It sets the loop index to the list size exactly when it emitted a coin. |
| ChangeDispenser.GreedyLoop | com.thelocalmarketplace.software/src/com/thelocalmarketplace/software/PaymentHandler.java:123-131 | The `for` loop with its in-loop index assignment computes the as-written pass. |
| ChangeDispenser.DispenseLoop | com.thelocalmarketplace.software/src/com/thelocalmarketplace/software/PaymentHandler.java:109-134 | The method's statements compute the functional model of the call as written, fault and result included. |
| Inventory.LoadCoinDispenser | com.thelocalmarketplace.software/src/com/thelocalmarketplace/software/PaymentHandler.java:143-159 | A null argument array is refused before anything is loaded. On a valid station, loading succeeds iff every coin is non-null, has a dispenser and fits. Then each dispenser holds its old count plus the coins of its value and nothing else changes. A fault leaves loaded exactly the coins before the offending one, and is that coin's fault. |
| Inventory.LoadAll | com.thelocalmarketplace.software/src/com/thelocalmarketplace/software/PaymentHandler.java:147-159 | The loop changes only dispenser counts: the same dispensers with the same capacities, no count dropping. A null coin anywhere in the list makes it fault, and a valid station stays valid. |
| Inventory.LoadAllSucceeds | com.thelocalmarketplace.software/src/com/thelocalmarketplace/software/PaymentHandler.java:147-159 | Loading succeeds iff every coin is non-null, has a dispenser, and fits in it. Then each dispenser holds its old count plus the coins of its value, and nothing else changes. |
| Inventory.LoadAllKeepsPrefix | com.thelocalmarketplace.software/src/com/thelocalmarketplace/software/PaymentHandler.java:147-159 | A fault leaves loaded exactly the coins before the offending one. The fault is that coin's: null coin, no dispenser, or a full dispenser. |
| Inventory.EmptyCoinStorage | com.thelocalmarketplace.software/src/com/thelocalmarketplace/software/PaymentHandler.java:165-168 | The storage count becomes 0 and nothing else changes. Storage then has space iff its capacity is positive. |
| Scenarios.VisitOrder | com.thelocalmarketplace.software/src/com/thelocalmarketplace/software/PaymentHandler.java:113-114 | Denominations configured as 5, 25, 1, 10 are visited as 25, 10, 5, 1. |
| Scenarios.AsWrittenChange30 | com.thelocalmarketplace.software/src/com/thelocalmarketplace/software/PaymentHandler.java:123-133 | As written, change of 30 from stock 25:2, 10:0, 5:3, 1:30 emits one 25 and returns false, with 5 still owed. |
| Scenarios.AsWrittenChange20 | com.thelocalmarketplace.software/src/com/thelocalmarketplace/software/PaymentHandler.java:123-133 | As written, change of 20 from the same stock emits three 5s and returns false, with 5 still owed and all thirty 1-cent coins still in stock. |
| Scenarios.CorrectedChange30And20 | com.thelocalmarketplace.software/src/com/thelocalmarketplace/software/PaymentHandler.java:123-133 | Corrected, both amounts are paid exactly. |
| Scenarios.CorrectedTakes25Then5 | com.thelocalmarketplace.software/src/com/thelocalmarketplace/software/PaymentHandler.java:123-133 | Corrected, on any valid station visited as 25, 10, 5, 1 with a 25 and a 5 in stock, change of 30 emits exactly a 25 then a 5 and returns true, each of those stocks down by one. |
| Scenarios.CorrectedChange30 | com.thelocalmarketplace.software/src/com/thelocalmarketplace/software/PaymentHandler.java:123-133 | Corrected, change of 30 from stock 25:2, 10:0, 5:3, 1:10 emits a 25 and then a 5 and returns true, leaving 25:1 and 5:2. |
| Scenarios.DollarPayment | com.thelocalmarketplace.software/src/com/thelocalmarketplace/software/PaymentHandler.java:63-96 | One 100-cent coin against a cost of 100 cents: as written the payment fails with the coin in storage; corrected it succeeds. |

## Left out

- The `SelfCheckoutStation` inheritance and the constructor (lines 22-32) are replaced by the `Station` record. The hardware classes are not part of this model.
- A dispenser's `emit` can also fail because the dispenser is disabled or switched off, or its output tray is full. These are not modelled: the model's `emit` fails only on an empty dispenser. The same holds for the power and enabled state of the coin slot and storage unit, beyond the slot's enabled flag.
- The coin slot's own validation of a coin's currency or denomination is hardware behaviour and is not modelled. Any coin value is received.
- `BigDecimal` scale and scale-sensitive map lookups are not modelled: amounts are integer cents.
- The in-place `Collections.sort` and `reverse` of the station's shared denomination list (lines 112-114) are not modelled. The model visits a pure descending view and leaves the configured list in its order. Each call re-sorts the list, so no outcome depends on the order it is left in.
- The station's configuration is taken as guaranteed (`Valid`): a non-empty list of distinct positive denominations, one dispenser for each, and no unit filled past its capacity. The faults the code would raise on a configuration outside this are not modelled: an empty denomination list makes `get(size() - 1)` at line 117 throw `IndexOutOfBoundsException` for positive change, and a listed denomination without a dispenser makes the lookup at line 119 or 125 yield null and throw `NullPointerException`.
- `amountSpent` starts as Java `null` (line 24). The model starts it at any integer, and no operation reads it.
- The `ComponentFailure` branch (lines 156-157) is not modelled. An unknown denomination never reaches it: the null lookup raises a plain null pointer fault instead. No other simulation fault of `load` is visible in this code.
- Exception messages (including `v.doubleValue()` at line 155) are not modelled.
- Nothing here is concurrent. The physical return of coins and customer signalling are not modelled, since the code does neither.
- `totalCost` has no setter and is always 0 in the source (line 26). The model keeps it as a field of `Handler`, so that the underpaid and overpaid outcomes can be stated at all.

## Findings

| source | as written | input that shows it | evidently intended | confidence | as-written member | corrected member |
|---|---|---|---|---|---|---|
| com.thelocalmarketplace.software/src/com/thelocalmarketplace/software/PaymentHandler.java:89-95 | `acceptInsertedCoin` returns false on every path. Line 66 therefore takes every coin's value off the accepted total, even the coins storage received. | Total cost 100, one 100-cent coin, storage with room and the slot enabled: the coin lands in storage and the payment returns false. | Answer true when the coin is received, as the method's doc comment says, so that a received coin counts towards the payment. | high; not executed | PaymentHandler.AsWrittenKeepsCoins | PaymentHandler.CorrectedPaysExactly |
| com.thelocalmarketplace.software/src/com/thelocalmarketplace/software/PaymentHandler.java:123-131 | `i = coinDenominations.size()` inside the `while` ends the `for` after the first denomination that emits a coin, so smaller coins are never tried. | Change 30 with stock 25:2, 10:0, 5:3, 1:30: one 25 is emitted and the call returns false with 5 owed. | Continue with the smaller denominations until nothing is owed or none fits. | high; not executed | Scenarios.AsWrittenChange30 | ChangeDispenser.CorrectedSettlesWithUnitCoins |

=== FILE: acceptor.dfy ===
/** `acceptInsertedCoin` and the acceptance loop of `processPaymentWithCoins`, which takes
    the value of every coin the acceptor reports as not accepted off the running total. */
module CoinAcceptor {
  import opened Common
  import opened Money
  import opened Hardware

  /** `acceptInsertedCoin` as written: a coin is received into storage while it has space,
      otherwise the slot is disabled; on every path the method answers "not accepted". */
  function AcceptInsertedCoin(st: Station, c: Coin): (r: Outcome<Station, bool>)
    ensures r.Done? ==> !r.value
    ensures HasSpace(st) && st.slotEnabled ==>
              r.Done? && r.state.storageCount == st.storageCount + 1 <= st.storageCapacity
    ensures HasSpace(st) && !st.slotEnabled ==> r.Raised? && r.fault == Disabled
    ensures !HasSpace(st) ==> r.Done? && !r.state.slotEnabled
    ensures HasSpace(st) && st.slotEnabled ==> r.state.slotEnabled
    ensures !HasSpace(st) ==> r.state.storageCount == st.storageCount
    ensures r.Raised? ==> r.state == st
    ensures r.state.dispensers == st.dispensers && r.state.denominations == st.denominations
    ensures r.state.storageCapacity == st.storageCapacity
    ensures Valid(st) ==> Valid(r.state)
  {
    if HasSpace(st) then
      match Receive(st)
      case Raised(st', f) => Raised(st', f)
      case Done(st', _) => Done(st', false)
    else Done(Disable(st), false)
  }

  /** The acceptor as its doc comment promises: the same effects, answering "accepted"
      exactly when the coin was received into storage. */
  function AcceptCoinCorrected(st: Station, c: Coin): (r: Outcome<Station, bool>)
    ensures r.Done? ==> (r.value <==> r.state.storageCount == st.storageCount + 1)
    ensures r.state == AcceptInsertedCoin(st, c).state
    ensures r.Raised? <==> AcceptInsertedCoin(st, c).Raised?
  {
    if HasSpace(st) then
      match Receive(st)
      case Raised(st', f) => Raised(st', f)
      case Done(st', _) => Done(st', true)
    else Done(Disable(st), false)
  }

  function Accept(st: Station, c: Coin, rev: Revision): Outcome<Station, bool>
  {
    match rev
    case AsWritten => AcceptInsertedCoin(st, c)
    case Corrected => AcceptCoinCorrected(st, c)
  }

  /** The second loop of `processPaymentWithCoins`: offer each coin in order, and take the
      value of each one reported as not accepted off `value`. A fault ends the loop. The
      dispensers are never touched; as written, every coin's value comes off the total. */
  function AcceptAll(st: Station, cs: seq<Coin>, value: int, rev: Revision): (r: Outcome<Station, int>)
    ensures r.state.dispensers == st.dispensers && r.state.denominations == st.denominations
    ensures rev == AsWritten && r.Done? ==> r.value == value - Value(cs)
    decreases |cs|
  {
    if cs == [] then Done(st, value)
    else
      match Accept(st, cs[0], rev)
      case Raised(st', f) => Raised(st', f)
      case Done(st', accepted) =>
        AcceptAll(st', cs[1..], if accepted then value else value - cs[0].value, rev)
  }

  /** The acceptance loop in closed form. With `free` places left in storage, the first
      `min(|cs|, free)` coins are received and the slot is disabled if any coin is left
      over; an already disabled slot faults on the first coin that would fit. As written
      every coin's value is taken off the total; corrected only the coins not received. */
  lemma {:induction false} AcceptAllClosedForm(st: Station, cs: seq<Coin>, value: int, rev: Revision)
    requires st.storageCount <= st.storageCapacity
    ensures var r := AcceptAll(st, cs, value, rev);
      var free := st.storageCapacity - st.storageCount;
      var k := Min(|cs|, free);
      && (|cs| > 0 && free > 0 && !st.slotEnabled ==> r == Raised(st, Disabled))
      && (|cs| == 0 || free == 0 || st.slotEnabled ==>
            && r.Done?
            && r.state == st.(storageCount := st.storageCount + k,
                              slotEnabled := st.slotEnabled && |cs| <= free)
            && r.value == value - Value(cs) + (if rev == Corrected then Value(cs[..k]) else 0))
    decreases |cs|
  {
    var free := st.storageCapacity - st.storageCount;
    if cs == [] {
      assert st.(storageCount := st.storageCount, slotEnabled := st.slotEnabled) == st;
    } else if free == 0 {
      var st' := Disable(st);
      AcceptAllClosedForm(st', cs[1..], value - cs[0].value, rev);
      assert cs[..0] == [];
    } else if st.slotEnabled {
      var st' := st.(storageCount := st.storageCount + 1);
      var accepted := rev == Corrected;
      AcceptAllClosedForm(st', cs[1..], if accepted then value else value - cs[0].value, rev);
      var k := Min(|cs|, free);
      assert cs[..k][0] == cs[0] && cs[..k][1..] == cs[1..][..k - 1];
    }
  }
}

=== FILE: change.dfy ===
/** `dispenseAccurateChange`: the "below the smallest coin" shortcut, then a greedy pass over
    the denominations in descending order, succeeding exactly when nothing remains owed. */
module ChangeDispenser {
  import opened Common
  import opened Money
  import opened Hardware

  /** The locals of one run: the station, `amountDispensed`, `remainingAmount`, and the
      denominations of the coins emitted so far, in emission order. */
  datatype Pass = Pass(station: Station, dispensed: int, remaining: int, emitted: seq<int>)

  /** The guard of the inner `while`: the coin still fits in the remainder and its
      dispenser is not empty. */
  predicate Usable(p: Pass, d: int)
    requires d in p.station.dispensers
  {
    p.remaining >= d && p.station.dispensers[d].count > 0
  }

  /** One iteration of the inner `while`: emit a coin of `d` and book it. */
  function Take(p: Pass, d: int): Pass
    requires d in p.station.dispensers && p.station.dispensers[d].count > 0
  {
    Pass(Remove(p.station, d), p.dispensed + d, p.remaining - d, p.emitted + [d])
  }

  /** From `p0` to `p` the dispenser for `d` kept its capacity and lost exactly the coins
      of `d` emitted in between. */
  ghost predicate DispenserBooked(p0: Pass, p: Pass, d: int)
  {
    d in p0.station.dispensers ==>
      && d in p.station.dispensers
      && p.station.dispensers[d].capacity == p0.station.dispensers[d].capacity
      && p.station.dispensers[d].count + multiset(p.emitted)[d]
         == p0.station.dispensers[d].count + multiset(p0.emitted)[d]
  }

  /** From `p0` to `p` only dispensers changed, each as `DispenserBooked` says, and the
      emitted list only grew. */
  ghost predicate StockBooked(p0: Pass, p: Pass)
  {
    && p0.emitted <= p.emitted
    && p.station.(dispensers := p0.station.dispensers) == p0.station
    && p.station.dispensers.Keys == p0.station.dispensers.Keys
    && forall d :: DispenserBooked(p0, p, d)
  }

  /** `amountDispensed` moves by exactly the value of the coins emitted, and
      `amountDispensed + remainingAmount` is unchanged. */
  ghost predicate ValueBooked(p0: Pass, p: Pass)
  {
    && p.dispensed + p.remaining == p0.dispensed + p0.remaining
    && p.dispensed - Sum(p.emitted) == p0.dispensed - Sum(p0.emitted)
  }

  lemma {:induction false} BookedTrans(p0: Pass, p1: Pass, p2: Pass)
    requires StockBooked(p0, p1) && StockBooked(p1, p2)
    ensures StockBooked(p0, p2)
  {
    assert p2.station.(dispensers := p0.station.dispensers)
        == p1.station.(dispensers := p0.station.dispensers);
    forall d ensures DispenserBooked(p0, p2, d) {
      assert DispenserBooked(p0, p1, d) && DispenserBooked(p1, p2, d);
    }
  }

  lemma {:induction false} TakeBooked(p: Pass, d: int)
    requires d in p.station.dispensers && p.station.dispensers[d].count > 0
    ensures StockBooked(p, Take(p, d)) && ValueBooked(p, Take(p, d))
    ensures Take(p, d).emitted == p.emitted + [d] && Take(p, d).remaining == p.remaining - d
    ensures d in Take(p, d).station.dispensers
    ensures Take(p, d).station.dispensers[d].count == p.station.dispensers[d].count - 1
  {
    var q := Take(p, d);
    assert q.emitted[..|q.emitted| - 1] == p.emitted;
    assert multiset(q.emitted) == multiset(p.emitted) + multiset{d};
  }

  /** Along a booked pass no dispenser grows. */
  lemma BookedShrinks(p0: Pass, p: Pass, d: int)
    requires StockBooked(p0, p) && d in p0.station.dispensers
    ensures d in p.station.dispensers
    ensures p.station.dispensers[d].count <= p0.station.dispensers[d].count
  {
    assert DispenserBooked(p0, p, d);
    assert p.emitted == p0.emitted + p.emitted[|p0.emitted|..];
    assert multiset(p.emitted) == multiset(p0.emitted) + multiset(p.emitted[|p0.emitted|..]);
  }

  /** A booked pass keeps the station's configuration invariant. */
  lemma BookedValid(p0: Pass, p: Pass)
    requires Valid(p0.station) && StockBooked(p0, p)
    ensures Valid(p.station)
  {
    forall d | d in p.station.dispensers
      ensures p.station.dispensers[d].count <= p.station.dispensers[d].capacity
    {
      assert DispenserBooked(p0, p, d);
      assert p.emitted == p0.emitted + p.emitted[|p0.emitted|..];
      assert multiset(p.emitted) == multiset(p0.emitted) + multiset(p.emitted[|p0.emitted|..]);
    }
  }

  /** The inner `while` for one denomination `d`: emit while the coin fits and the
      dispenser has stock. */
  function Drain(p: Pass, d: int): (r: Pass)
    requires d > 0 && d in p.station.dispensers
    ensures StockBooked(p, r) && ValueBooked(p, r)
    ensures !Usable(r, d)
    ensures Usable(p, d) <==> |r.emitted| > |p.emitted|
    ensures r.remaining <= p.remaining
    ensures p.remaining >= 0 ==> r.remaining >= 0
    decreases p.station.dispensers[d].count
  {
    if Usable(p, d) then
      var q := Take(p, d);
      TakeBooked(p, d);
      var r := Drain(q, d);
      BookedTrans(p, q, r);
      r
    else p
  }

  /** The inner `while` emits coins of its own denomination only. */
  lemma {:induction false} DrainEmitsOnly(p: Pass, d: int)
    requires d > 0 && d in p.station.dispensers
    ensures forall i :: |p.emitted| <= i < |Drain(p, d).emitted| ==> Drain(p, d).emitted[i] == d
    decreases p.station.dispensers[d].count
  {
    if Usable(p, d) {
      var q := Take(p, d);
      TakeBooked(p, d);
      DrainEmitsOnly(q, d);
      assert Drain(p, d) == Drain(q, d);
      assert q.emitted <= Drain(q, d).emitted;
    }
  }

  /** Every denomination of `ds` is a positive amount with a dispenser. */
  ghost predicate Dispensable(st: Station, ds: seq<int>)
  {
    forall i :: 0 <= i < |ds| ==> ds[i] > 0 && ds[i] in st.dispensers
  }

  /** The outer `for` as written: the assignment `i = coinDenominations.size()` inside the
      inner loop ends the pass after the first denomination that emits a coin. */
  function GreedyAsWritten(p: Pass, ds: seq<int>): (r: Pass)
    requires Dispensable(p.station, ds)
    ensures StockBooked(p, r) && ValueBooked(p, r)
    ensures forall i :: |p.emitted| <= i < |r.emitted| ==> r.emitted[i] in ds
    ensures forall i, j :: |p.emitted| <= i < |r.emitted| && |p.emitted| <= j < |r.emitted| ==>
              r.emitted[i] == r.emitted[j]
    ensures (forall i :: 0 <= i < |ds| ==> !Usable(p, ds[i])) <==> r == p
    ensures p.remaining >= 0 ==> r.remaining >= 0
  {
    if ds == [] then p
    else if Usable(p, ds[0]) then
      DrainEmitsOnly(p, ds[0]);
      assert ds[0] in ds;
      Drain(p, ds[0])
    else
      var r := GreedyAsWritten(p, ds[1..]);
      assert forall i :: 0 < i < |ds| ==> ds[i] == ds[1..][i - 1];
      r
  }

  /** The outer `for` as evidently intended: every denomination is drained in turn. */
  function GreedyFull(p: Pass, ds: seq<int>): (r: Pass)
    requires Dispensable(p.station, ds)
    ensures StockBooked(p, r) && ValueBooked(p, r)
    ensures forall i :: |p.emitted| <= i < |r.emitted| ==> r.emitted[i] in ds
    ensures forall i :: 0 <= i < |ds| ==> !Usable(r, ds[i])
    ensures r.remaining <= p.remaining
    ensures p.remaining >= 0 ==> r.remaining >= 0
    decreases |ds|
  {
    if ds == [] then p
    else
      var q := Drain(p, ds[0]);
      DrainEmitsOnly(p, ds[0]);
      assert ds[0] in ds;
      var r := GreedyFull(q, ds[1..]);
      BookedTrans(p, q, r);
      assert forall i :: 0 < i < |ds| ==> ds[i] == ds[1..][i - 1];
      BookedShrinks(q, r, ds[0]);
      r
  }

  function Greedy(p: Pass, ds: seq<int>, rev: Revision): (r: Pass)
    requires Dispensable(p.station, ds)
    ensures StockBooked(p, r) && ValueBooked(p, r)
    ensures forall i :: |p.emitted| <= i < |r.emitted| ==> r.emitted[i] in ds
    ensures p.remaining >= 0 ==> r.remaining >= 0
  {
    match rev
    case AsWritten => GreedyAsWritten(p, ds)
    case Corrected => GreedyFull(p, ds)
  }

  /** With nothing usable, the full pass changes nothing. */
  lemma {:induction false} GreedyFullIdle(p: Pass, ds: seq<int>)
    requires Dispensable(p.station, ds)
    requires forall i :: 0 <= i < |ds| ==> !Usable(p, ds[i])
    ensures GreedyFull(p, ds) == p
    decreases |ds|
  {
    if ds != [] {
      assert forall i :: 0 < i < |ds| ==> ds[i] == ds[1..][i - 1];
      GreedyFullIdle(p, ds[1..]);
    }
  }

  /** `m` is the smallest configured denomination. */
  ghost predicate Smallest(st: Station, m: int)
  {
    m in st.denominations && forall x :: x in st.denominations ==> m <= x
  }

  /** The descending view of the configured denominations, with the facts most uses need;
      `DescendingViewSorted` states its order. */
  function DescendingView(st: Station): (ds: seq<int>)
    requires Valid(st)
    ensures forall x :: x in ds <==> x in st.denominations
    ensures |ds| > 0 && Smallest(st, ds[|ds| - 1])
    ensures Dispensable(st, ds)
  {
    var ds := SortDescending(st.denominations);
    LastIsSmallest(st.denominations, ds);
    SortedSameElements(st.denominations);
    assert Dispensable(st, ds) by {
      forall i | 0 <= i < |ds| ensures ds[i] > 0 && ds[i] in st.dispensers {
        assert ds[i] in ds;
        var k :| 0 <= k < |st.denominations| && st.denominations[k] == ds[i];
      }
    }
    ds
  }

  /** The visiting order is non-increasing and a permutation of the configured list. */
  lemma DescendingViewSorted(st: Station)
    requires Valid(st)
    ensures Descending(DescendingView(st))
    ensures multiset(DescendingView(st)) == multiset(st.denominations)
  {
  }

  /** `dispenseAccurateChange(changeValue)`: the returned pass holds the locals at the
      `return` (or at the throw), the boolean is the method's result. */
  function DispenseAccurateChange(st: Station, change: int, rev: Revision): (r: Outcome<Pass, bool>)
    requires Valid(st)
    ensures r.state.dispensed + r.state.remaining == change
    ensures r.Done? ==> (r.value <==> r.state.remaining == 0)
    ensures StockBooked(Pass(st, 0, change, []), r.state)
    ensures Valid(r.state.station)
  {
    var ds := DescendingView(st);
    var start := Pass(st, 0, change, []);
    if change <= 0 then Done(start, change == 0)
    else if change < ds[|ds| - 1] then
      var lowest := ds[|ds| - 1];
      match Emit(st, lowest)
      case Raised(_, f) => Raised(start, f)
      case Done(st1, _) =>
        var p1 := Pass(st1, change, 0, [lowest]);
        ShortcutBooked(st, change, lowest);
        var q := Greedy(p1, ds, rev);
        BookedTrans(start, p1, q);
        BookedValid(start, q);
        Done(q, q.remaining == 0)
    else
      var q := Greedy(start, ds, rev);
      BookedValid(start, q);
      Done(q, q.remaining == 0)
  }

  /** The shortcut's single coin is booked against its dispenser. */
  lemma ShortcutBooked(st: Station, change: int, lowest: int)
    requires lowest in st.dispensers && st.dispensers[lowest].count > 0
    ensures StockBooked(Pass(st, 0, change, []), Pass(Remove(st, lowest), change, 0, [lowest]))
  {
    assert multiset([lowest]) == multiset{lowest};
  }

  /** Outside the shortcut, both passes start from the untouched station. */
  lemma GreedyCase(st: Station, change: int, rev: Revision)
    requires Valid(st)
    requires change > 0 && exists x :: x in st.denominations && x <= change
    ensures DispenseAccurateChange(st, change, rev)
         == var q := Greedy(Pass(st, 0, change, []), DescendingView(st), rev); Done(q, q.remaining == 0)
  {
    var ds := DescendingView(st);
    var x :| x in st.denominations && x <= change;
    assert ds[|ds| - 1] <= x;
  }

  /** The cases the pass never reaches: no change owed, a negative amount, and an amount
      below the smallest coin, which is settled by one smallest coin. */
  lemma DispenseEdgeCases(st: Station, change: int, rev: Revision)
    requires Valid(st)
    ensures change == 0 ==> DispenseAccurateChange(st, change, rev) == Done(Pass(st, 0, 0, []), true)
    ensures change < 0 ==> DispenseAccurateChange(st, change, rev) == Done(Pass(st, 0, change, []), false)
    ensures 0 < change && (forall x :: x in st.denominations ==> change < x) ==>
              forall m :: Smallest(st, m) ==>
                DispenseAccurateChange(st, change, rev)
                  == if Stock(st, m) == 0 then Raised(Pass(st, 0, change, []), NoCashAvailable)
                     else Done(Pass(Remove(st, m), change, 0, [m]), true)
  {
    var ds := DescendingView(st);
    if 0 < change && (forall x :: x in st.denominations ==> change < x) {
      var lowest := ds[|ds| - 1];
      forall m | Smallest(st, m) ensures m == lowest { }
      if Stock(st, lowest) > 0 {
        var p1 := Pass(Remove(st, lowest), change, 0, [lowest]);
        assert forall i :: 0 <= i < |ds| ==> !Usable(p1, ds[i]);
        GreedyFullIdle(p1, ds);
      }
    }
  }

  /** What a pass from the untouched station guarantees about the coins it emits. */
  lemma GreedyEmits(st: Station, change: int, rev: Revision)
    requires Valid(st) && change > 0 && exists x :: x in st.denominations && x <= change
    ensures var r := DispenseAccurateChange(st, change, rev);
      && (forall i :: 0 <= i < |r.state.emitted| ==> r.state.emitted[i] in st.denominations)
      && Sum(r.state.emitted) == r.state.dispensed
  {
    GreedyCase(st, change, rev);
    var ds := DescendingView(st);
    var start := Pass(st, 0, change, []);
    var q := Greedy(start, ds, rev);
    assert DispenseAccurateChange(st, change, rev).state == q;
    forall i | 0 <= i < |q.emitted| ensures q.emitted[i] in st.denominations {
      assert q.emitted[i] in ds;
    }
    assert ValueBooked(start, q) && Sum(start.emitted) == 0;
  }

  /** With nothing owed, or a negative amount, nothing is emitted and the result is whether
      the amount is zero. */
  lemma NothingOwed(st: Station, change: int, rev: Revision)
    requires Valid(st) && change <= 0
    ensures DispenseAccurateChange(st, change, rev) == Done(Pass(st, 0, change, []), change == 0)
  {
  }

  /** Below the smallest coin, what is emitted is nothing or one smallest coin. */
  lemma ShortcutEmits(st: Station, change: int, rev: Revision)
    requires Valid(st) && 0 < change && forall x :: x in st.denominations ==> change < x
    ensures var r := DispenseAccurateChange(st, change, rev);
      && (r.Raised? ==> r.state.emitted == [])
      && (r.Done? ==> r.value && exists m :: Smallest(st, m) && r.state.emitted == [m])
  {
    DispenseEdgeCases(st, change, rev);
    var ds := DescendingView(st);
    var lowest := ds[|ds| - 1];
    assert Smallest(st, lowest);
  }

  /** Every coin emitted is of a configured denomination. */
  lemma DispenseEmitsConfigured(st: Station, change: int, rev: Revision)
    requires Valid(st)
    ensures var e := DispenseAccurateChange(st, change, rev).state.emitted;
      forall i :: 0 <= i < |e| ==> e[i] in st.denominations
  {
    if change <= 0 {
      NothingOwed(st, change, rev);
    } else if exists x :: x in st.denominations && x <= change {
      GreedyEmits(st, change, rev);
    } else {
      ShortcutEmits(st, change, rev);
    }
  }

  /** Outside the shortcut `amountDispensed` is exactly the value emitted; a success
      emits at least the change owed, and exactly that outside the shortcut. */
  lemma DispenseEmitsValue(st: Station, change: int, rev: Revision)
    requires Valid(st)
    ensures var r := DispenseAccurateChange(st, change, rev);
      && ((exists x :: x in st.denominations && x <= change) ==> Sum(r.state.emitted) == r.state.dispensed)
      && ((exists x :: x in st.denominations && x <= change) && r.Done? && r.value ==> Sum(r.state.emitted) == change)
      && (r.Done? && r.value ==> Sum(r.state.emitted) >= change)
  {
    var r := DispenseAccurateChange(st, change, rev);
    if change <= 0 {
      NothingOwed(st, change, rev);
    } else if exists x :: x in st.denominations && x <= change {
      GreedyEmits(st, change, rev);
    } else {
      ShortcutEmits(st, change, rev);
      if r.Done? {
        var m :| Smallest(st, m) && r.state.emitted == [m];
        assert Sum([m]) == m by { assert [m][..0] == []; }
      }
    }
  }

  /** As written, the pass never mixes denominations: every coin emitted is of one value. */
  lemma AsWrittenOneDenomination(st: Station, change: int)
    requires Valid(st)
    ensures var e := DispenseAccurateChange(st, change, AsWritten).state.emitted;
      forall i, j :: 0 <= i < |e| && 0 <= j < |e| ==> e[i] == e[j]
  {
    if change <= 0 {
      NothingOwed(st, change, AsWritten);
    } else if exists x :: x in st.denominations && x <= change {
      AsWrittenGreedyUniform(st, change);
    } else {
      ShortcutEmits(st, change, AsWritten);
    }
  }

  lemma AsWrittenGreedyUniform(st: Station, change: int)
    requires Valid(st) && change > 0 && exists x :: x in st.denominations && x <= change
    ensures var e := DispenseAccurateChange(st, change, AsWritten).state.emitted;
      forall i, j :: 0 <= i < |e| && 0 <= j < |e| ==> e[i] == e[j]
  {
    GreedyCase(st, change, AsWritten);
    var q := GreedyAsWritten(Pass(st, 0, change, []), DescendingView(st));
    assert DispenseAccurateChange(st, change, AsWritten).state == q;
  }

  /** Corrected, the pass only gives up when no denomination fits the remainder and still
      has stock. */
  lemma CorrectedIsMaximal(st: Station, change: int)
    requires Valid(st)
    ensures var r := DispenseAccurateChange(st, change, Corrected);
      r.Done? ==> forall x :: x in st.denominations ==>
        r.state.remaining < x || Stock(r.state.station, x) == 0
  {
    if change > 0 && exists x :: x in st.denominations && x <= change {
      CorrectedGreedyExhausts(st, change);
    } else {
      PassIdleOwesNothing(st, change, Corrected);
      forall x | x in st.denominations ensures x > 0 {
        var k :| 0 <= k < |st.denominations| && st.denominations[k] == x;
      }
    }
  }

  lemma CorrectedGreedyExhausts(st: Station, change: int)
    requires Valid(st) && change > 0 && exists x :: x in st.denominations && x <= change
    ensures var r := DispenseAccurateChange(st, change, Corrected);
      r.Done? && forall x :: x in st.denominations ==>
        r.state.remaining < x || Stock(r.state.station, x) == 0
  {
    var ds := DescendingView(st);
    GreedyCase(st, change, Corrected);
    var q := GreedyFull(Pass(st, 0, change, []), ds);
    assert DispenseAccurateChange(st, change, Corrected) == Done(q, q.remaining == 0);
    forall x | x in st.denominations
      ensures q.remaining < x || Stock(q.station, x) == 0
    {
      assert x in ds;
      var k :| 0 <= k < |ds| && ds[k] == x;
      assert !Usable(q, ds[k]);
    }
  }

  /** When no pass runs from the untouched station, a completed call owes nothing more. */
  lemma PassIdleOwesNothing(st: Station, change: int, rev: Revision)
    requires Valid(st) && !(change > 0 && exists x :: x in st.denominations && x <= change)
    ensures var r := DispenseAccurateChange(st, change, rev);
      r.Done? ==> r.state.remaining <= 0
  {
    if change <= 0 {
      NothingOwed(st, change, rev);
    } else {
      ShortcutEmits(st, change, rev);
    }
  }

  /** The corrected pass settles a positive amount exactly whenever there are 1-cent coins
      enough to cover it on their own: the pass stops only when nothing is owed or
      the 1-cent dispenser is empty, and emptying it already pays the whole amount. */
  lemma CorrectedSettlesWithUnitCoins(st: Station, change: int)
    requires Valid(st) && 1 in st.denominations && 0 < change <= Stock(st, 1)
    ensures var r := DispenseAccurateChange(st, change, Corrected);
      r.Done? && r.value && Sum(r.state.emitted) == change
  {
    var ds := DescendingView(st);
    var start := Pass(st, 0, change, []);
    GreedyCase(st, change, Corrected);
    var q := GreedyFull(start, ds);
    assert DispenseAccurateChange(st, change, Corrected) == Done(q, q.remaining == 0);
    assert 1 in ds;
    var k :| 0 <= k < |ds| && ds[k] == 1;
    assert !Usable(q, ds[k]);
    forall i | 0 <= i < |q.emitted| ensures q.emitted[i] > 0 {
      assert q.emitted[i] in ds;
      var j :| 0 <= j < |ds| && ds[j] == q.emitted[i];
    }
    UnitCoinsSettle(start, q);
  }

  /** A booked pass that started with enough 1-cent coins to cover what was owed, and
      stopped with the 1-cent coin unusable, owes nothing. */
  lemma UnitCoinsSettle(p0: Pass, q: Pass)
    requires StockBooked(p0, q) && ValueBooked(p0, q)
    requires p0.emitted == [] && p0.dispensed == 0
    requires 1 in p0.station.dispensers && p0.remaining <= Stock(p0.station, 1)
    requires 1 in q.station.dispensers && q.remaining >= 0 && !Usable(q, 1)
    requires forall i :: 0 <= i < |q.emitted| ==> q.emitted[i] > 0
    ensures q.remaining == 0 && Sum(q.emitted) == p0.remaining
  {
    assert DispenserBooked(p0, q, 1);
    if q.remaining > 0 {
      SumAtLeastCount(q.emitted, 1);
    }
  }

  lemma {:induction false} MulAtLeast(x: nat, d: nat)
    requires x >= 1
    ensures x * d >= d
  {
    if x > 1 {
      MulAtLeast(x - 1, d);
      assert x * d == (x - 1) * d + d;
    }
  }

  /** Quotient and remainder by a positive divisor are unique. */
  lemma DivUnique(a: int, d: int, q: int, m: int)
    requires d > 0 && 0 <= m < d && a == q * d + m
    ensures q == a / d && m == a % d
  {
    var q0, m0 := a / d, a % d;
    assert a == q0 * d + m0;
    if q > q0 {
      assert (q - q0) * d == q * d - q0 * d;
      MulAtLeast(q - q0, d);
    } else if q < q0 {
      assert (q0 - q) * d == q0 * d - q * d;
      MulAtLeast(q0 - q, d);
    }
  }

  lemma DivStep(a: int, d: int)
    requires d > 0 && a >= d
    ensures (a - d) / d == a / d - 1
  {
    var q, m := a / d, a % d;
    assert a == q * d + m;
    assert a - d == (q - 1) * d + m;
    DivUnique(a - d, d, q - 1, m);
  }

  /** How many coins of `d` the inner `while` emits from remainder `rem` and stock `c`. */
  function Emissions(rem: int, d: int, c: nat): nat
    requires d > 0 && rem >= 0
  {
    Min(rem / d, c)
  }

  lemma EmissionsStep(rem: int, d: int, c: nat)
    requires d > 0 && rem >= d && c > 0
    ensures Emissions(rem, d, c) == Emissions(rem - d, d, c - 1) + 1
  {
    DivStep(rem, d);
  }

  lemma EmissionsNone(rem: int, d: int, c: nat)
    requires d > 0 && rem >= 0 && (rem < d || c == 0)
    ensures Emissions(rem, d, c) == 0
  {
    if rem < d {
      DivUnique(rem, d, 0, rem);
    }
  }

  /** One emission from `p`, as seen by the closed form. */
  lemma TakeStep(p: Pass, d: int)
    requires d > 0 && d in p.station.dispensers && Usable(p, d)
    ensures Drain(p, d) == Drain(Take(p, d), d)
    ensures d in Take(p, d).station.dispensers
    ensures Stock(Take(p, d).station, d) == Stock(p.station, d) - 1
    ensures |Take(p, d).emitted| == |p.emitted| + 1
    ensures Take(p, d).remaining == p.remaining - d
  {
  }

  /** The inner `while` emits `min(remaining / d, stock)` coins of `d`. */
  lemma {:induction false} DrainClosedForm(p: Pass, d: int)
    requires d > 0 && d in p.station.dispensers && p.remaining >= 0
    ensures var k := Emissions(p.remaining, d, Stock(p.station, d));
      var r := Drain(p, d);
      && |r.emitted| == |p.emitted| + k
      && Stock(r.station, d) == Stock(p.station, d) - k
    decreases Stock(p.station, d)
  {
    if Usable(p, d) {
      TakeStep(p, d);
      DrainClosedForm(Take(p, d), d);
      EmissionsStep(p.remaining, d, Stock(p.station, d));
    } else {
      EmissionsNone(p.remaining, d, Stock(p.station, d));
    }
  }

  /** `d` is the largest denomination that fits in `change` and has stock. */
  ghost predicate LargestUsable(st: Station, change: int, d: int)
    requires Valid(st)
  {
    && d in st.denominations && d <= change && Stock(st, d) > 0
    && forall x :: x in st.denominations && x <= change && Stock(st, x) > 0 ==> x <= d
  }

  /** Visiting the descending view, the as-written pass drains the largest usable
      denomination and nothing else. */
  lemma {:induction false} AsWrittenDrainsLargest(p: Pass, ds: seq<int>, i: int)
    requires Dispensable(p.station, ds) && Descending(ds)
    requires 0 <= i < |ds| && Usable(p, ds[i])
    requires forall j :: 0 <= j < |ds| && Usable(p, ds[j]) ==> ds[j] <= ds[i]
    ensures GreedyAsWritten(p, ds) == Drain(p, ds[i])
    decreases |ds|
  {
    if Usable(p, ds[0]) {
      assert ds[0] == ds[i];
    } else {
      assert i > 0;
      assert forall j :: 0 < j < |ds| ==> ds[j] == ds[1..][j - 1];
      AsWrittenDrainsLargest(p, ds[1..], i - 1);
    }
  }

  /** Draining `d` settles `rem` exactly when `d` divides it and the stock covers it. */
  lemma EmissionsExact(rem: int, d: int, c: nat)
    requires d > 0 && rem >= 0
    ensures rem - Emissions(rem, d, c) * d == 0 <==> rem % d == 0 && rem / d <= c
  {
    var q, m := rem / d, rem % d;
    assert rem == q * d + m;
    if q > c {
      MulAtLeast(q - c, d);
      assert rem - c * d == (q - c) * d + m;
    }
  }

  /** As written, beyond the shortcut: with no usable denomination nothing is emitted and
      the call fails; otherwise only the largest usable denomination `d` is drained, and the
      call succeeds exactly when `d` divides the change and its stock covers it. */
  lemma AsWrittenOutcome(st: Station, change: int)
    requires Valid(st) && change > 0 && exists x :: x in st.denominations && x <= change
    ensures var r := DispenseAccurateChange(st, change, AsWritten);
      && r.Done?
      && ((forall x :: x in st.denominations && x <= change ==> Stock(st, x) == 0) ==>
            r.state.station == st && r.state.emitted == [] && !r.value)
      && forall d :: LargestUsable(st, change, d) ==>
            var k := Emissions(change, d, Stock(st, d));
            && r.state.emitted == Repeat(d, k)
            && Stock(r.state.station, d) == Stock(st, d) - k
            && (r.value <==> change % d == 0 && change / d <= Stock(st, d))
  {
    var r := DispenseAccurateChange(st, change, AsWritten);
    if forall x :: x in st.denominations && x <= change ==> Stock(st, x) == 0 {
      AsWrittenIdle(st, change);
    }
    forall d | LargestUsable(st, change, d)
      ensures var k := Emissions(change, d, Stock(st, d));
        && r.state.emitted == Repeat(d, k)
        && Stock(r.state.station, d) == Stock(st, d) - k
        && (r.value <==> change % d == 0 && change / d <= Stock(st, d))
    {
      AsWrittenSettles(st, change, d);
    }
  }

  /** As written, with no denomination both fitting and in stock, the pass does nothing. */
  lemma AsWrittenIdle(st: Station, change: int)
    requires Valid(st) && change > 0 && exists x :: x in st.denominations && x <= change
    requires forall x :: x in st.denominations && x <= change ==> Stock(st, x) == 0
    ensures var r := DispenseAccurateChange(st, change, AsWritten);
      r.Done? && r.state.station == st && r.state.emitted == [] && !r.value
  {
    GreedyCase(st, change, AsWritten);
    var ds := DescendingView(st);
    var start := Pass(st, 0, change, []);
    forall i | 0 <= i < |ds| ensures !Usable(start, ds[i]) {
      assert ds[i] in ds;
    }
  }

  lemma AsWrittenDrains(st: Station, change: int, d: int)
    requires Valid(st) && change > 0 && LargestUsable(st, change, d)
    ensures DispenseAccurateChange(st, change, AsWritten).state == Drain(Pass(st, 0, change, []), d)
  {
    GreedyCase(st, change, AsWritten);
    var ds := DescendingView(st);
    var start := Pass(st, 0, change, []);
    DescendingViewSorted(st);
    assert d in ds;
    var i :| 0 <= i < |ds| && ds[i] == d;
    forall j | 0 <= j < |ds| && Usable(start, ds[j]) ensures ds[j] <= ds[i] {
      assert ds[j] in ds;
    }
    AsWrittenDrainsLargest(start, ds, i);
  }

  /** Draining `d` from the untouched station, in closed form. */
  lemma DrainFromStart(st: Station, change: int, d: int)
    requires d > 0 && d in st.dispensers && change >= 0
    ensures var q := Drain(Pass(st, 0, change, []), d);
      var k := Emissions(change, d, Stock(st, d));
      && q.emitted == Repeat(d, k)
      && Stock(q.station, d) == Stock(st, d) - k
      && (q.remaining == 0 <==> change % d == 0 && change / d <= Stock(st, d))
  {
    var start := Pass(st, 0, change, []);
    var q := Drain(start, d);
    DrainClosedForm(start, d);
    DrainEmitsOnly(start, d);
    var k := Emissions(change, d, Stock(st, d));
    assert q.emitted == Repeat(d, k);
    SumRepeat(d, k);
    assert q.remaining == change - k * d;
    EmissionsExact(change, d, Stock(st, d));
  }

  lemma AsWrittenSettles(st: Station, change: int, d: int)
    requires Valid(st) && change > 0 && LargestUsable(st, change, d)
    ensures var r := DispenseAccurateChange(st, change, AsWritten);
      var k := Emissions(change, d, Stock(st, d));
      && r.state.emitted == Repeat(d, k)
      && Stock(r.state.station, d) == Stock(st, d) - k
      && (r.Done? && (r.value <==> change % d == 0 && change / d <= Stock(st, d)))
  {
    AsWrittenDrains(st, change, d);
    DrainFromStart(st, change, d);
    GreedyCase(st, change, AsWritten);
  }

  /** What the as-written pass leaves: the coins of `d` it emitted are off the change, and
      every other dispenser keeps its stock. */
  lemma AsWrittenLeavesRest(st: Station, change: int, d: int)
    requires Valid(st) && change > 0 && LargestUsable(st, change, d)
    ensures var r := DispenseAccurateChange(st, change, AsWritten);
      var k := Emissions(change, d, Stock(st, d));
      && r.state.remaining == change - k * d
      && (forall e :: e in st.dispensers && e != d ==>
            e in r.state.station.dispensers && Stock(r.state.station, e) == Stock(st, e))
  {
    AsWrittenRemainder(st, change, d);
    AsWrittenOtherStocks(st, change, d);
  }

  /** The as-written pass owes the change less the `d` coins it emitted. */
  lemma AsWrittenRemainder(st: Station, change: int, d: int)
    requires Valid(st) && change > 0 && LargestUsable(st, change, d)
    ensures DispenseAccurateChange(st, change, AsWritten).state.remaining
         == change - Emissions(change, d, Stock(st, d)) * d
  {
    AsWrittenSettles(st, change, d);
    GreedyCase(st, change, AsWritten);
    GreedyEmits(st, change, AsWritten);
    SumRepeat(d, Emissions(change, d, Stock(st, d)));
  }

  /** The as-written pass leaves every dispenser but that of `d` as it was. */
  lemma AsWrittenOtherStocks(st: Station, change: int, d: int)
    requires Valid(st) && change > 0 && LargestUsable(st, change, d)
    ensures var r := DispenseAccurateChange(st, change, AsWritten);
      forall e :: e in st.dispensers && e != d ==>
        e in r.state.station.dispensers && Stock(r.state.station, e) == Stock(st, e)
  {
    AsWrittenSettles(st, change, d);
    var r := DispenseAccurateChange(st, change, AsWritten);
    OnlyEmittedMove(Pass(st, 0, change, []), r.state, d, Emissions(change, d, Stock(st, d)));
  }

  /** A booked pass that emitted only coins of `d` left every other dispenser as it was. */
  lemma OnlyEmittedMove(p0: Pass, q: Pass, d: int, k: nat)
    requires StockBooked(p0, q) && p0.emitted == [] && q.emitted == Repeat(d, k)
    ensures forall e :: e in p0.station.dispensers && e != d ==>
      e in q.station.dispensers && q.station.dispensers[e].count == p0.station.dispensers[e].count
  {
    forall e | e in p0.station.dispensers && e != d
      ensures e in q.station.dispensers && q.station.dispensers[e].count == p0.station.dispensers[e].count
    {
      assert e !in multiset(Repeat(d, k));
      assert DispenserBooked(p0, q, e);
    }
  }

  /** With less than two coins of `d` owed, the inner `while` emits exactly one. */
  lemma DrainOnce(p: Pass, d: int)
    requires d > 0 && d in p.station.dispensers && Usable(p, d) && p.remaining < 2 * d
    ensures Drain(p, d) == Take(p, d)
  {
    TakeStep(p, d);
    DrainIdle(Take(p, d), d);
  }

  /** The full pass drains the first denomination, then passes over the rest. */
  lemma GreedyFullStep(p: Pass, ds: seq<int>)
    requires Dispensable(p.station, ds) && ds != []
    ensures Dispensable(Drain(p, ds[0]).station, ds[1..])
    ensures GreedyFull(p, ds) == GreedyFull(Drain(p, ds[0]), ds[1..])
  {
    assert forall i :: 0 < i < |ds| ==> ds[i] == ds[1..][i - 1];
  }

  /** Without a usable coin the inner `while` does nothing. */
  lemma DrainIdle(p: Pass, d: int)
    requires d > 0 && d in p.station.dispensers && !Usable(p, d)
    ensures Drain(p, d) == p
  {
  }

  /** The inner `while` of `dispenseAccurateChange` as written, with the loop index `i` of
      the enclosing `for`: its body emits one coin and sets `i` to the list size `n`. */
  method InnerWhile(p: Pass, val: int, i: int, n: int) returns (q: Pass, i': int)
    requires val > 0 && val in p.station.dispensers
    ensures q == Drain(p, val)
    ensures i' == if Usable(p, val) then n else i
  {
    q, i' := p, i;
    ghost var ran := false;
    while q.remaining >= val && q.station.dispensers[val].count > 0
      invariant val in q.station.dispensers
      invariant Drain(p, val) == Drain(q, val)
      invariant !ran ==> q == p && i' == i
      invariant ran ==> i' == n && Usable(p, val)
      decreases q.station.dispensers[val].count
    {
      q := Take(q, val);  // emit, amountDispensed += val, remainingAmount -= val
      i' := n;
      ran := true;
    }
    DrainIdle(q, val);
  }

  /** The outer `for` of `dispenseAccurateChange` as written: the assignment made by the
      inner `while` pushes `i` past the list, so the `for` ends after that denomination. */
  method GreedyLoop(start: Pass, ds: seq<int>) returns (q: Pass)
    requires Dispensable(start.station, ds)
    ensures q == GreedyAsWritten(start, ds)
  {
    q := start;
    var i := 0;
    while i < |ds|
      invariant 0 <= i <= |ds| + 1
      invariant Dispensable(q.station, ds)
      invariant i <= |ds| ==> GreedyAsWritten(start, ds) == GreedyAsWritten(q, ds[i..])
      invariant i > |ds| ==> GreedyAsWritten(start, ds) == q
    {
      var val := ds[i];
      ghost var entry := q;
      ghost var i0 := i;
      q, i := InnerWhile(q, val, i, |ds|);
      assert ds[i0..][0] == val && ds[i0..][1..] == ds[i0 + 1..];
      if !Usable(entry, val) {
        assert GreedyAsWritten(entry, ds[i0..]) == GreedyAsWritten(entry, ds[i0 + 1..]);
      }
      i := i + 1;
    }
  }

  /** `dispenseAccurateChange` as written, statement for statement. */
  method DispenseLoop(st: Station, change: int) returns (r: Outcome<Pass, bool>)
    requires Valid(st)
    ensures r == DispenseAccurateChange(st, change, AsWritten)
  {
    var ds := DescendingView(st);
    var p := Pass(st, 0, change, []);
    if p.remaining > 0 {
      var lowest := ds[|ds| - 1];
      if p.remaining < lowest {
        var emitted := Emit(st, lowest);
        if emitted.Raised? {
          return Raised(p, emitted.fault);
        }
        p := Pass(emitted.state, change, 0, [lowest]);
      }
      p := GreedyLoop(p, ds);
    }
    return Done(p, p.remaining == 0);
  }
}

=== FILE: common.dfy ===
/** Java's nulls and exceptions, as values, shared by every module of the model. */
module Common {

  /** A Java reference that may be null. */
  datatype Nullable<T> = Null | Ref(get: T)

  /** The exception classes that escape the payment handler to its caller. */
  datatype Fault =
    | NullPointer            // java.lang.NullPointerException
    | NullPointerSimulation  // the simulation framework's null-argument exception
    | Disabled               // the coin slot is disabled
    | CashOverload           // the storage unit or a dispenser is full
    | NoCashAvailable        // a dispenser was asked to emit while it holds no coin

  /** Normal completion with a value, or a raised exception. Both carry the state the call
      left behind: Java undoes nothing that happened before a throw. */
  datatype Outcome<S, T> = Done(state: S, value: T) | Raised(state: S, fault: Fault)

  /** Which reading of the two defective spots of the handler is modelled: the code as
      written, or the evidently intended behaviour (see the Findings of the README). */
  datatype Revision = AsWritten | Corrected
}

=== FILE: hardware.dfy ===
/** The station hardware the handler drives, reduced to the counts it keeps: one dispenser per
    denomination, the coin storage unit, and the coin slot's enabled flag. */
module Hardware {
  import opened Common

  /** A coin dispenser: how many coins it holds and how many it can hold. */
  datatype Dispenser = Dispenser(count: nat, capacity: nat)

  datatype Station = Station(
    denominations: seq<int>,          // the configured denomination list, in configuration order
    dispensers: map<int, Dispenser>,  // one dispenser per denomination, keyed by value in cents
    storageCount: nat,                // coins held by the storage unit
    storageCapacity: nat,
    slotEnabled: bool)

  /** What the station's configuration guarantees: a non-empty list of distinct positive
      denominations, exactly one dispenser for each, and no unit filled past its capacity. */
  ghost predicate Valid(st: Station)
  {
    && |st.denominations| > 0
    && (forall i :: 0 <= i < |st.denominations| ==> st.denominations[i] > 0)
    && (forall i, j :: 0 <= i < j < |st.denominations| ==> st.denominations[i] != st.denominations[j])
    && (forall d :: d in st.dispensers <==> d in st.denominations)
    && (forall d :: d in st.dispensers ==> st.dispensers[d].count <= st.dispensers[d].capacity)
    && st.storageCount <= st.storageCapacity
  }

  /** Number of coins held by the dispenser for `d`. */
  function Stock(st: Station, d: int): nat
    requires d in st.dispensers
  {
    st.dispensers[d].count
  }

  /** The storage unit's `hasSpace`. */
  predicate HasSpace(st: Station)
  {
    st.storageCount < st.storageCapacity
  }

  /** The coin slot's `receive`: a disabled slot refuses the coin, a full storage unit
      overloads, otherwise the coin lands in storage. */
  function Receive(st: Station): Outcome<Station, ()>
  {
    if !st.slotEnabled then Raised(st, Disabled)
    else if !HasSpace(st) then Raised(st, CashOverload)
    else Done(st.(storageCount := st.storageCount + 1), ())
  }

  /** The coin slot's `disable`. */
  function Disable(st: Station): Station
  {
    st.(slotEnabled := false)
  }

  /** The storage unit's `unload`. */
  function Unload(st: Station): Station
  {
    st.(storageCount := 0)
  }

  /** Takes one coin out of the dispenser for `d`. */
  function Remove(st: Station, d: int): Station
    requires d in st.dispensers && st.dispensers[d].count > 0
  {
    st.(dispensers := st.dispensers[d := st.dispensers[d].(count := st.dispensers[d].count - 1)])
  }

  /** A dispenser's `emit`: an empty dispenser has no cash to give. */
  function Emit(st: Station, d: int): Outcome<Station, ()>
    requires d in st.dispensers
  {
    if st.dispensers[d].count == 0 then Raised(st, NoCashAvailable)
    else Done(Remove(st, d), ())
  }

  /** `coinDispensers.get(d).load(coin)`: an unknown value finds no dispenser (the lookup
      yields null), a full dispenser overloads, otherwise it holds one more coin. */
  function Load(st: Station, d: int): Outcome<Station, ()>
  {
    if d !in st.dispensers then Raised(st, NullPointer)
    else if st.dispensers[d].count >= st.dispensers[d].capacity then Raised(st, CashOverload)
    else Done(st.(dispensers := st.dispensers[d := st.dispensers[d].(count := st.dispensers[d].count + 1)]), ())
  }

  /** Loading a coin keeps the station's configuration invariant. */
  lemma LoadValid(st: Station, d: int)
    ensures Valid(st) ==> Valid(Load(st, d).state)
  {
  }
}

=== FILE: inventory.dfy ===
/** `loadCoinDispenser` and `emptyCoinStorage`: restocking the dispensers the change comes
    from, and emptying the storage unit the accepted coins go to. */
module Inventory {
  import opened Common
  import opened Money
  import opened Hardware

  /** How many coins of value `d` the argument list holds. */
  function Tally(cs: seq<Nullable<Coin>>, d: int): nat
  {
    if cs == [] then 0 else (if cs[0] == Ref(Coin(d)) then 1 else 0) + Tally(cs[1..], d)
  }

  /** The loop of `loadCoinDispenser` over the argument list: a null coin is refused, and
      each other coin goes to the dispenser of its own value. A fault ends the loop and the
      coins loaded before it stay loaded. Only dispenser counts change, and none drops; a
      null anywhere in the list ends in a fault. */
  function LoadAll(st: Station, cs: seq<Nullable<Coin>>): (r: Outcome<Station, ()>)
    ensures r.state.(dispensers := st.dispensers) == st
    ensures r.state.dispensers.Keys == st.dispensers.Keys
    ensures forall d :: d in st.dispensers ==>
              && r.state.dispensers[d].capacity == st.dispensers[d].capacity
              && r.state.dispensers[d].count >= st.dispensers[d].count
    ensures (exists i :: 0 <= i < |cs| && cs[i].Null?) ==> r.Raised?
    ensures Valid(st) ==> Valid(r.state)
    decreases |cs|
  {
    if cs == [] then Done(st, ())
    else if cs[0].Null? then Raised(st, NullPointerSimulation)
    else
      match Load(st, cs[0].get.value)
      case Raised(st', f) => Raised(st', f)
      case Done(st', _) =>
        assert forall i :: 1 <= i < |cs| ==> cs[i] == cs[1..][i - 1];
        LoadValid(st, cs[0].get.value);
        LoadAll(st', cs[1..])
  }

  /** `loadCoinDispenser(coins...)`: a null array is refused before anything is loaded.
      Otherwise the coins are loaded in order: loading succeeds exactly when every coin
      fits, each dispenser then holds its old count plus the coins of its value, and a
      fault leaves loaded exactly the coins before the one that caused it. */
  function LoadCoinDispenser(st: Station, coins: Nullable<seq<Nullable<Coin>>>): (r: Outcome<Station, ()>)
    ensures coins.Null? ==> r == Raised(st, NullPointerSimulation)
    ensures coins.Ref? && Valid(st) ==> (r.Done? <==> Loadable(st, coins.get))
    ensures coins.Ref? && Valid(st) && r.Done? ==> LoadedInto(st, coins.get, r.state)
    ensures coins.Ref? && r.Raised? ==> FaultAfterPrefix(st, coins.get, r.state, r.fault)
  {
    if coins.Null? then Raised(st, NullPointerSimulation)
    else
      LoadMeaning(st, coins.get);
      LoadAll(st, coins.get)
  }

  /** `st'` is `st` with each dispenser holding its old count plus the coins of its value
      in `cs`. */
  ghost predicate LoadedInto(st: Station, cs: seq<Nullable<Coin>>, st': Station)
  {
    && st'.(dispensers := st.dispensers) == st
    && st'.dispensers.Keys == st.dispensers.Keys
    && forall d :: d in st.dispensers ==>
         st'.dispensers[d] == st.dispensers[d].(count := st.dispensers[d].count + Tally(cs, d))
  }

  /** Some coin `cs[k]` raised `f`, and `st'` is what loading the coins before it left. */
  ghost predicate FaultAfterPrefix(st: Station, cs: seq<Nullable<Coin>>, st': Station, f: Fault)
  {
    exists k :: 0 <= k < |cs| && LoadAll(st, cs[..k]) == Done(st', ())
                && FaultOf(LoadAll(st, cs[..k]).state, cs[k]) == Ref(f)
  }

  /** What the loading loop's outcome means, on a valid station and on a fault. */
  lemma LoadMeaning(st: Station, cs: seq<Nullable<Coin>>)
    ensures Valid(st) ==> (LoadAll(st, cs).Done? <==> Loadable(st, cs))
    ensures Valid(st) && LoadAll(st, cs).Done? ==> LoadedInto(st, cs, LoadAll(st, cs).state)
    ensures LoadAll(st, cs).Raised? ==>
              FaultAfterPrefix(st, cs, LoadAll(st, cs).state, LoadAll(st, cs).fault)
  {
    if Valid(st) {
      LoadAllSucceeds(st, cs);
    }
    if LoadAll(st, cs).Raised? {
      LoadAllKeepsPrefix(st, cs);
    }
  }

  /** Every coin is present and of a known denomination, and every dispenser has room for
      all the coins of its value. */
  ghost predicate Loadable(st: Station, cs: seq<Nullable<Coin>>)
  {
    && (forall i :: 0 <= i < |cs| ==> cs[i].Ref? && cs[i].get.value in st.dispensers)
    && (forall d :: d in st.dispensers ==>
          st.dispensers[d].count + Tally(cs, d) <= st.dispensers[d].capacity)
  }

  /** Loading succeeds exactly when every coin fits, and then each dispenser holds its old
      count plus the coins of its value, and nothing else changes. */
  lemma LoadAllSucceeds(st: Station, cs: seq<Nullable<Coin>>)
    requires Valid(st)
    ensures LoadAll(st, cs).Done? <==> Loadable(st, cs)
    ensures LoadAll(st, cs).Done? ==> LoadedInto(st, cs, LoadAll(st, cs).state)
  {
    LoadAllFits(st, cs);
    LoadAllCounts(st, cs);
  }

  /** How the tally of a list splits over its first coin. */
  lemma TallyStep(cs: seq<Nullable<Coin>>)
    requires cs != []
    ensures forall d :: Tally(cs, d) == (if cs[0] == Ref(Coin(d)) then 1 else 0) + Tally(cs[1..], d)
  {
  }

  lemma {:induction false} LoadAllFits(st: Station, cs: seq<Nullable<Coin>>)
    requires Valid(st)
    ensures LoadAll(st, cs).Done? <==> Loadable(st, cs)
    decreases |cs|
  {
    if cs != [] && cs[0].Ref? {
      var v := cs[0].get.value;
      if Load(st, v).Done? {
        var st1 := Load(st, v).state;
        LoadValid(st, v);
        LoadAllFits(st1, cs[1..]);
        LoadableStep(st, cs);
      } else if v in st.dispensers {
        TallyStep(cs);
        assert Tally(cs, v) >= 1;
      }
    }
  }

  /** Once the first coin is loaded, the rest fit exactly when the whole list fitted. */
  lemma LoadableStep(st: Station, cs: seq<Nullable<Coin>>)
    requires cs != [] && cs[0].Ref? && Load(st, cs[0].get.value).Done?
    ensures Loadable(st, cs) <==> Loadable(Load(st, cs[0].get.value).state, cs[1..])
  {
    assert forall i :: 1 <= i < |cs| ==> cs[i] == cs[1..][i - 1];
    TallyStep(cs);
  }

  lemma {:induction false} LoadAllCounts(st: Station, cs: seq<Nullable<Coin>>)
    ensures LoadAll(st, cs).Done? ==> LoadedInto(st, cs, LoadAll(st, cs).state)
    decreases |cs|
  {
    if cs != [] && cs[0].Ref? && Load(st, cs[0].get.value).Done? {
      var st1 := Load(st, cs[0].get.value).state;
      LoadAllCounts(st1, cs[1..]);
      TallyStep(cs);
    }
  }

  /** A fault leaves loaded exactly the coins before the one that caused it: a null coin
      (`NullPointerSimulation`), a value with no dispenser (`NullPointer`), or a full
      dispenser (`CashOverload`). */
  lemma {:induction false} LoadAllKeepsPrefix(st: Station, cs: seq<Nullable<Coin>>)
    requires LoadAll(st, cs).Raised?
    ensures exists k :: 0 <= k < |cs| && LoadAll(st, cs[..k]) == Done(LoadAll(st, cs).state, ())
              && FaultOf(LoadAll(st, cs[..k]).state, cs[k]) == Ref(LoadAll(st, cs).fault)
    decreases |cs|
  {
    var r := LoadAll(st, cs);
    if cs[0].Null? || Load(st, cs[0].get.value).Raised? {
      assert cs[..0] == [];
      assert LoadAll(st, cs[..0]) == Done(r.state, ());
    } else {
      var st1 := Load(st, cs[0].get.value).state;
      LoadAllKeepsPrefix(st1, cs[1..]);
      var k :| 0 <= k < |cs[1..]| && LoadAll(st1, cs[1..][..k]) == Done(r.state, ())
               && FaultOf(LoadAll(st1, cs[1..][..k]).state, cs[1..][k]) == Ref(r.fault);
      assert cs[..k + 1][0] == cs[0] && cs[..k + 1][1..] == cs[1..][..k];
      assert LoadAll(st, cs[..k + 1]) == LoadAll(st1, cs[1..][..k]);
    }
  }

  /** The fault loading one argument into `st` raises, or `Null` when the coin loads. */
  function FaultOf(st: Station, c: Nullable<Coin>): Nullable<Fault>
  {
    if c.Null? then Ref(NullPointerSimulation)
    else if c.get.value !in st.dispensers then Ref(NullPointer)
    else if st.dispensers[c.get.value].count >= st.dispensers[c.get.value].capacity then Ref(CashOverload)
    else Null
  }

  /** `emptyCoinStorage`: the storage unit is emptied and nothing else changes. */
  function EmptyCoinStorage(st: Station): (r: Station)
    ensures r.storageCount == 0
    ensures r.(storageCount := st.storageCount) == st
    ensures Valid(st) ==> Valid(r)
    ensures HasSpace(r) <==> st.storageCapacity > 0
  {
    Unload(st)
  }
}

=== FILE: money.dfy ===
/** Coins, amounts in cents, and the descending view of the configured denominations. */
module Money {

  /** A coin, by its face value in cents. */
  datatype Coin = Coin(value: int)

  /** Sum of a sequence of amounts, folded from the back so that appending is cheap to reason about. */
  function Sum(s: seq<int>): int
  {
    if s == [] then 0 else Sum(s[..|s| - 1]) + s[|s| - 1]
  }

  function Min(a: int, b: int): int
  {
    if a <= b then a else b
  }

  /** Total face value of a list of coins. */
  function Value(cs: seq<Coin>): int
  {
    if cs == [] then 0 else cs[0].value + Value(cs[1..])
  }

  /** A sequence of `k` copies of `d`. */
  function Repeat(d: int, k: nat): (r: seq<int>)
    ensures |r| == k
    ensures forall i :: 0 <= i < k ==> r[i] == d
  {
    seq(k, _ => d)
  }

  lemma {:induction false} SumRepeat(d: int, k: nat)
    ensures Sum(Repeat(d, k)) == k * d
  {
    if k > 0 {
      assert Repeat(d, k)[..k - 1] == Repeat(d, k - 1);
      SumRepeat(d, k - 1);
    }
  }

  /** With positive amounts only, the `d`-valued entries alone are worth `d` times their count. */
  lemma {:induction false} SumAtLeastCount(s: seq<int>, d: int)
    requires d > 0 && forall i :: 0 <= i < |s| ==> s[i] > 0
    ensures Sum(s) >= d * multiset(s)[d]
    decreases |s|
  {
    if s != [] {
      var t := s[..|s| - 1];
      assert s == t + [s[|s| - 1]];
      assert multiset(s) == multiset(t) + multiset{s[|s| - 1]};
      SumAtLeastCount(t, d);
    }
  }

  /** Non-increasing order: what sorting ascending and then reversing leaves behind. */
  ghost predicate Descending(s: seq<int>)
  {
    forall i, j :: 0 <= i < j < |s| ==> s[i] >= s[j]
  }

  /** A sequence holding the elements of `u` plus `x` is bounded by any bound of them. */
  lemma BoundedByElements(t: seq<int>, u: seq<int>, x: int, b: int)
    requires multiset(t) == multiset(u) + multiset{x}
    requires x <= b && forall k :: 0 <= k < |u| ==> u[k] <= b
    ensures forall k :: 0 <= k < |t| ==> t[k] <= b
  {
    forall k | 0 <= k < |t| ensures t[k] <= b {
      assert t[k] in multiset(t);
      if t[k] != x {
        assert t[k] in multiset(u);
        var j :| 0 <= j < |u| && u[j] == t[k];
      }
    }
  }

  /** Inserts `x` into a non-increasing sequence, keeping it non-increasing. */
  function Insert(x: int, s: seq<int>): (r: seq<int>)
    requires Descending(s)
    ensures Descending(r)
    ensures multiset(r) == multiset(s) + multiset{x}
  {
    if s == [] || x >= s[0] then
      ConsDescending(x, s);
      [x] + s
    else
      var t := Insert(x, s[1..]);
      assert s == [s[0]] + s[1..];
      BoundedByElements(t, s[1..], x, s[0]);
      ConsDescending(s[0], t);
      [s[0]] + t
  }

  /** A head no smaller than the first element of a non-increasing tail keeps it
      non-increasing. */
  lemma ConsDescending(a: int, t: seq<int>)
    requires Descending(t) && (t == [] || a >= t[0] || forall k :: 0 <= k < |t| ==> t[k] <= a)
    ensures Descending([a] + t)
  {
    var r := [a] + t;
    forall i, j | 0 <= i < j < |r| ensures r[i] >= r[j] {
      if i == 0 && t != [] && a >= t[0] {
        assert t[0] >= t[j - 1];
      }
    }
  }

  /** The pure descending view of a denomination list that replaces the in-place
      `Collections.sort` and `Collections.reverse` of the list. */
  function SortDescending(s: seq<int>): (r: seq<int>)
    ensures Descending(r)
    ensures multiset(r) == multiset(s)
  {
    if s == [] then []
    else
      assert s == [s[0]] + s[1..];
      Insert(s[0], SortDescending(s[1..]))
  }

  /** The last element of a non-increasing permutation of `s` is the smallest element of `s`. */
  lemma LastIsSmallest(s: seq<int>, ds: seq<int>)
    requires |s| > 0
    requires Descending(ds) && multiset(ds) == multiset(s)
    ensures |ds| == |s|
    ensures ds[|ds| - 1] in s
    ensures forall x :: x in s ==> ds[|ds| - 1] <= x
  {
    assert |ds| == |multiset(ds)| == |multiset(s)| == |s|;
    var last := |ds| - 1;
    assert ds[last] in multiset(ds);
    forall x | x in s ensures ds[last] <= x {
      assert x in multiset(ds);
      var k :| 0 <= k < |ds| && ds[k] == x;
      assert k <= last;
    }
  }

  /** The descending view holds exactly the configured denominations. */
  lemma SortedSameElements(s: seq<int>)
    ensures forall x :: x in SortDescending(s) <==> x in s
  {
    var ds := SortDescending(s);
    forall x ensures x in ds <==> x in s {
      assert x in ds <==> x in multiset(ds);
      assert x in s <==> x in multiset(s);
    }
  }
}

=== FILE: payment.dfy ===
/** `PaymentHandler`: one coin payment against a total cost, and the change remaining it
    reports afterwards. */
module PaymentHandler {
  import opened Common
  import opened Money
  import opened Hardware
  import opened CoinAcceptor
  import opened ChangeDispenser

  /** The handler's fields next to the station it drives. `totalCost` has no setter in the
      handler; it is part of the state so that every outcome can be stated. */
  datatype Handler = Handler(station: Station, totalCost: int, amountSpent: int, changeRemaining: int)

  /** `getChangeRemaining`. */
  function GetChangeRemaining(h: Handler): int
  {
    h.changeRemaining
  }

  predicate NoNulls<T>(xs: seq<Nullable<T>>)
  {
    forall i :: 0 <= i < |xs| ==> xs[i].Ref?
  }

  function Unwrap<T>(xs: seq<Nullable<T>>): (r: seq<T>)
    requires NoNulls(xs)
    ensures |r| == |xs| && forall i :: 0 <= i < |xs| ==> xs[i] == Ref(r[i])
  {
    seq(|xs|, i requires 0 <= i < |xs| => xs[i].get)
  }

  /** The decision at the end of `processPaymentWithCoins`, given the station `st` the
      acceptance loop left and the accepted total: underpaid fails and touches nothing;
      otherwise `amountSpent` becomes the total cost, and an overpayment succeeds exactly
      when its excess is dispensed exactly. */
  function Settle(h: Handler, st: Station, accepted: int, rev: Revision): (r: Outcome<Handler, bool>)
    requires Valid(st)
    ensures Valid(r.state.station)
    ensures r.state.totalCost == h.totalCost && r.state.changeRemaining == h.changeRemaining
    ensures r.state.station.(dispensers := st.dispensers) == st
    ensures accepted < h.totalCost ==> r == Done(h.(station := st), false)
    ensures accepted >= h.totalCost ==> r.state.amountSpent == h.totalCost
    ensures accepted == h.totalCost ==> r.Done? && r.value && r.state.station == st
    ensures accepted > h.totalCost ==>
              ChangeSettled(h, st, accepted, rev, r) && (r.Raised? ==> r.fault == NoCashAvailable)
    ensures r.Done? && r.value ==> accepted >= h.totalCost
  {
    if accepted < h.totalCost then Done(h.(station := st), false)
    else
      var h' := h.(station := st, amountSpent := h.totalCost);
      if accepted > h.totalCost then
        match DispenseAccurateChange(st, accepted - h.totalCost, rev)
        case Raised(p, f) => Raised(h'.(station := p.station), f)
        case Done(p, ok) => Done(h'.(station := p.station), ok)
      else Done(h', true)
  }

  /** `r` ends an overpayment: `amountSpent` is the total cost, and the station and the
      result are those of dispensing the excess from `st`. */
  ghost predicate ChangeSettled(h: Handler, st: Station, accepted: int, rev: Revision, r: Outcome<Handler, bool>)
    requires Valid(st)
  {
    var d := DispenseAccurateChange(st, accepted - h.totalCost, rev);
    && r.state.amountSpent == h.totalCost
    && r.state.station == d.state.station
    && (r.Done? <==> d.Done?)
    && (r.Done? ==> (r.value <==> d.state.remaining == 0))
  }

  /** `processPaymentWithCoins`: a null list, or a null coin met while summing, is a null
      pointer fault before anything changes; otherwise the payment proceeds as `Tender`,
      after which `getChangeRemaining` reports the tendered sum less the total cost, whatever
      the outcome, since nothing updates it later. */
  function ProcessPaymentWithCoins(h: Handler, coins: Nullable<seq<Nullable<Coin>>>, rev: Revision): (r: Outcome<Handler, bool>)
    requires Valid(h.station)
    ensures coins.Null? || !NoNulls(coins.get) ==> r == Raised(h, NullPointer)
    ensures coins.Ref? && NoNulls(coins.get) ==> r == Tender(h, Unwrap(coins.get), rev)
    ensures coins.Ref? && NoNulls(coins.get) ==>
              GetChangeRemaining(r.state) == Value(Unwrap(coins.get)) - h.totalCost
  {
    if coins.Null? || !NoNulls(coins.get) then Raised(h, NullPointer)
    else Tender(h, Unwrap(coins.get), rev)
  }

  /** The body of `processPaymentWithCoins` past its null checks: the tendered sum is
      recorded as `amountSpent`, and less the total cost as `changeRemaining`, and every
      coin is offered to the acceptor. Then, by the outcome of that loop: a fault
      propagates with the tendered sum recorded; an underpayment fails with `amountSpent`
      left at the tendered sum and no dispenser touched; an exact payment succeeds with
      `amountSpent` at the total cost and no dispenser touched; an overpayment sets
      `amountSpent` to the total cost and succeeds exactly when its excess is dispensed
      exactly. */
  function Tender(h: Handler, cs: seq<Coin>, rev: Revision): (r: Outcome<Handler, bool>)
    requires Valid(h.station)
    ensures r.state.changeRemaining == Value(cs) - h.totalCost
    ensures r.state.totalCost == h.totalCost
    ensures Valid(r.state.station)
    ensures var a := AcceptedTotal(h, cs, rev);
      && (a.Raised? ==> r.Raised? && r.fault == a.fault && r.state.amountSpent == Value(cs)
                        && r.state.station == a.state)
      && (a.Done? && a.value < h.totalCost ==>
            r.Done? && !r.value && r.state.amountSpent == Value(cs)
            && r.state.station == a.state && r.state.station.dispensers == h.station.dispensers)
      && (a.Done? && a.value == h.totalCost ==>
            r.Done? && r.value && r.state.amountSpent == h.totalCost
            && r.state.station == a.state && r.state.station.dispensers == h.station.dispensers)
      && (a.Done? && a.value > h.totalCost ==> ChangeSettled(h, a.state, a.value, rev, r))
  {
    var h1 := h.(amountSpent := Value(cs), changeRemaining := Value(cs) - h.totalCost);
    var a := AcceptedTotal(h, cs, rev);
    ConcludeOutcomes(h1, a, rev);
    Conclude(h1, a, rev)
  }

  /** After the acceptance loop: its fault propagates from the station it left, or its
      accepted total is settled there. */
  function Conclude(h: Handler, a: Outcome<Station, int>, rev: Revision): (r: Outcome<Handler, bool>)
    requires Valid(a.state)
    ensures r.state.changeRemaining == h.changeRemaining && r.state.totalCost == h.totalCost
    ensures Valid(r.state.station)
  {
    match a
    case Raised(st, f) => Raised(h.(station := st), f)
    case Done(st, accepted) => Settle(h, st, accepted, rev)
  }

  /** The accepted total that `processPaymentWithCoins` settles, when the loop completes. */
  function AcceptedTotal(h: Handler, cs: seq<Coin>, rev: Revision): (r: Outcome<Station, int>)
    ensures Valid(h.station) ==> Valid(r.state) && r.state.dispensers == h.station.dispensers
  {
    AcceptValid(h.station, cs, Value(cs), rev);
    AcceptAll(h.station, cs, Value(cs), rev)
  }

  /** The acceptance loop keeps the station valid. */
  lemma AcceptValid(st: Station, cs: seq<Coin>, value: int, rev: Revision)
    ensures Valid(st) ==> Valid(AcceptAll(st, cs, value, rev).state)
  {
    if st.storageCount <= st.storageCapacity {
      AcceptAllClosedForm(st, cs, value, rev);
    }
  }

  /** The end of a payment by the outcome `a` of the acceptance loop. */
  lemma ConcludeOutcomes(h: Handler, a: Outcome<Station, int>, rev: Revision)
    requires Valid(a.state)
    ensures var r := Conclude(h, a, rev);
      && (a.Raised? ==> r.Raised? && r.fault == a.fault && r.state.amountSpent == h.amountSpent)
      && (a.Done? && a.value < h.totalCost ==> r == Done(h.(station := a.state), false))
      && (a.Done? && a.value == h.totalCost ==>
            r.Done? && r.value && r.state.amountSpent == h.totalCost && r.state.station == a.state)
      && (a.Done? && a.value > h.totalCost ==> ChangeSettled(h, a.state, a.value, rev, r))
  {
    if a.Done? {
      assert Conclude(h, a, rev) == Settle(h, a.state, a.value, rev);
    }
  }

  /** As written the acceptor never reports a coin accepted, so the accepted total always
      ends at 0, whatever was tendered. */
  lemma AsWrittenAcceptsNothing(h: Handler, cs: seq<Coin>)
    requires Valid(h.station)
    ensures AcceptedTotal(h, cs, AsWritten).Done? ==> AcceptedTotal(h, cs, AsWritten).value == 0
  {
    AcceptAllClosedForm(h.station, cs, Value(cs), AsWritten);
  }

  /** Corrected, the accepted total is the value of the coins storage had room for; with
      room for all of them and an enabled slot, it is the whole tendered sum. */
  lemma CorrectedAcceptsReceived(h: Handler, cs: seq<Coin>)
    requires Valid(h.station)
    ensures var a := AcceptedTotal(h, cs, Corrected);
      var free := h.station.storageCapacity - h.station.storageCount;
      && (a.Done? ==> a.value == Value(cs[..Min(|cs|, free)]))
      && (h.station.slotEnabled && |cs| <= free ==> a.Done? && a.value == Value(cs))
  {
    var free := h.station.storageCapacity - h.station.storageCount;
    assert AcceptedTotal(h, cs, Corrected) == AcceptAll(h.station, cs, Value(cs), Corrected);
    CorrectedTotal(h.station, cs);
    if h.station.slotEnabled && |cs| <= free {
      AcceptAllClosedForm(h.station, cs, Value(cs), Corrected);
      assert cs[..Min(|cs|, free)] == cs;
    }
  }

  /** The corrected loop's total is the value of the coins storage had room for. */
  lemma CorrectedTotal(st: Station, cs: seq<Coin>)
    requires st.storageCount <= st.storageCapacity
    ensures var a := AcceptAll(st, cs, Value(cs), Corrected);
      a.Done? ==> a.value == Value(cs[..Min(|cs|, st.storageCapacity - st.storageCount)])
  {
    AcceptAllClosedForm(st, cs, Value(cs), Corrected);
  }

  /** As written, with the slot enabled or storage full, a positive total cost is never met
      and a zero cost (the only one the handler ever holds) always succeeds without
      dispensing; for a negative cost only the amount spent is fixed, at the cost itself. */
  lemma AsWrittenPayment(h: Handler, cs: seq<Coin>)
    requires Valid(h.station)
    requires h.station.slotEnabled || |cs| == 0 || !HasSpace(h.station)
    ensures var r := Tender(h, cs, AsWritten);
      && (h.totalCost > 0 ==> r.Done? && !r.value && r.state.amountSpent == Value(cs))
      && (h.totalCost == 0 ==> r.Done? && r.value && r.state.amountSpent == 0
                               && r.state.station.dispensers == h.station.dispensers)
      && (h.totalCost < 0 ==> r.state.amountSpent == h.totalCost)
  {
    AcceptAllClosedForm(h.station, cs, Value(cs), AsWritten);
    AsWrittenAcceptsNothing(h, cs);
  }

  /** The acceptor fault made visible: as written, a payment against a positive cost fails
      even when storage had room for every coin and received them all. */
  lemma AsWrittenKeepsCoins(h: Handler, cs: seq<Coin>)
    requires Valid(h.station) && h.station.slotEnabled && h.totalCost > 0
    requires |cs| <= h.station.storageCapacity - h.station.storageCount
    ensures var r := Tender(h, cs, AsWritten);
      && r.Done? && !r.value
      && r.state.station.storageCount == h.station.storageCount + |cs|
      && r.state.station.dispensers == h.station.dispensers
  {
    AcceptAllClosedForm(h.station, cs, Value(cs), AsWritten);
  }

  /** With the acceptor corrected, coins worth exactly the total cost pay it: the payment
      succeeds, every coin is received, and no change is dispensed. */
  lemma CorrectedPaysExactly(h: Handler, cs: seq<Coin>)
    requires Valid(h.station) && h.station.slotEnabled && Value(cs) == h.totalCost
    requires |cs| <= h.station.storageCapacity - h.station.storageCount
    ensures var r := Tender(h, cs, Corrected);
      && r.Done? && r.value && r.state.amountSpent == h.totalCost
      && r.state.station.storageCount == h.station.storageCount + |cs|
      && r.state.station.dispensers == h.station.dispensers
  {
    AcceptAllClosedForm(h.station, cs, Value(cs), Corrected);
    CorrectedAcceptsReceived(h, cs);
  }

  /** `getChangeRemaining` is never brought up to date once change is given: with the
      acceptor corrected, an overpayment succeeds exactly when its excess is dispensed in
      full, and either way `getChangeRemaining` still reports that whole excess. */
  lemma ChangeRemainingStale(h: Handler, cs: seq<Coin>)
    requires Valid(h.station) && h.station.slotEnabled && Value(cs) > h.totalCost
    requires |cs| <= h.station.storageCapacity - h.station.storageCount
    ensures var r := Tender(h, cs, Corrected);
      var d := DispenseAccurateChange(AcceptedTotal(h, cs, Corrected).state, Value(cs) - h.totalCost, Corrected);
      && (r.Done? && r.value <==> d.Done? && d.state.remaining == 0)
      && GetChangeRemaining(r.state) == Value(cs) - h.totalCost > 0
  {
    OverpaidSettles(h, cs);
    ReportsExcess(h, cs, Corrected);
  }

  /** Corrected, with room for every coin, an overpayment succeeds exactly when its excess
      is dispensed in full. */
  lemma OverpaidSettles(h: Handler, cs: seq<Coin>)
    requires Valid(h.station) && h.station.slotEnabled && Value(cs) > h.totalCost
    requires |cs| <= h.station.storageCapacity - h.station.storageCount
    ensures var r := Tender(h, cs, Corrected);
      var d := DispenseAccurateChange(AcceptedTotal(h, cs, Corrected).state, Value(cs) - h.totalCost, Corrected);
      r.Done? && r.value <==> d.Done? && d.state.remaining == 0
  {
    var st, r := AcceptedTotal(h, cs, Corrected).state, Tender(h, cs, Corrected);
    TenderOverpaid(h, cs);
    SettledExactly(h, st, Value(cs), Corrected, r);
  }

  /** Corrected, with room for every coin, an overpayment is settled from the whole
      tendered sum. */
  lemma TenderOverpaid(h: Handler, cs: seq<Coin>)
    requires Valid(h.station) && h.station.slotEnabled && Value(cs) > h.totalCost
    requires |cs| <= h.station.storageCapacity - h.station.storageCount
    ensures Valid(AcceptedTotal(h, cs, Corrected).state)
    ensures ChangeSettled(h, AcceptedTotal(h, cs, Corrected).state, Value(cs), Corrected, Tender(h, cs, Corrected))
  {
    CorrectedAcceptsAll(h, cs);
  }

  /** Whatever the outcome, `getChangeRemaining` reports the tendered sum less the cost. */
  lemma ReportsExcess(h: Handler, cs: seq<Coin>, rev: Revision)
    requires Valid(h.station)
    ensures GetChangeRemaining(Tender(h, cs, rev).state) == Value(cs) - h.totalCost
  {
  }

  /** Corrected, with room for every coin and an enabled slot, the whole tendered sum is
      accepted. */
  lemma CorrectedAcceptsAll(h: Handler, cs: seq<Coin>)
    requires Valid(h.station) && h.station.slotEnabled
    requires |cs| <= h.station.storageCapacity - h.station.storageCount
    ensures AcceptedTotal(h, cs, Corrected).Done? && AcceptedTotal(h, cs, Corrected).value == Value(cs)
  {
    CorrectedAcceptsReceived(h, cs);
  }

  /** An overpayment ends in success exactly when dispensing its excess leaves nothing owed. */
  lemma SettledExactly(h: Handler, st: Station, accepted: int, rev: Revision, r: Outcome<Handler, bool>)
    requires Valid(st) && ChangeSettled(h, st, accepted, rev, r)
    ensures var d := DispenseAccurateChange(st, accepted - h.totalCost, rev);
      r.Done? && r.value <==> d.Done? && d.state.remaining == 0
  {
  }
}

=== FILE: scenarios.dfy ===
/** Concrete cases of the model on stations with denominations 25, 10, 5 and 1 cents,
    configured out of order as 5, 25, 1, 10. */
module Scenarios {
  import opened Common
  import opened Money
  import opened Hardware
  import opened ChangeDispenser
  import opened PaymentHandler

  /** Dispenser stock 25:2, 10:0, 5:3, 1:30. */
  function Station0(): (st: Station)
    ensures Valid(st)
  {
    Station([5, 25, 1, 10],
            map[25 := Dispenser(2, 50), 10 := Dispenser(0, 50), 5 := Dispenser(3, 50), 1 := Dispenser(30, 50)],
            0, 100, true)
  }

  /** The same station with only ten 1-cent coins: stock 25:2, 10:0, 5:3, 1:10. */
  function Station1(): (st: Station)
    ensures Valid(st)
  {
    Station([5, 25, 1, 10],
            map[25 := Dispenser(2, 50), 10 := Dispenser(0, 50), 5 := Dispenser(3, 50), 1 := Dispenser(10, 50)],
            0, 100, true)
  }

  /** Kept as a lemma of its own: stated inline, its quantifier is expensive for the
      insertion steps that follow. */
  lemma DescendingSample()
    ensures Descending([25, 10, 1])
  {
  }

  lemma InsertFiveLast()
    ensures Insert(5, [10, 1]) == [10, 5, 1]
  {
    assert Insert(5, [1]) == [5, 1];
    assert [10, 1][1..] == [1];
  }

  lemma InsertFive()
    ensures Insert(5, [25, 10, 1]) == [25, 10, 5, 1]
  {
    DescendingSample();
    InsertFiveLast();
    var s := [25, 10, 1];
    assert s[1..] == [10, 1] && s[0] == 25;
    assert Insert(5, s) == [25] + Insert(5, [10, 1]);
  }

  /** The configured order 5, 25, 1, 10 is visited as 25, 10, 5, 1. */
  lemma VisitOrder(st: Station)
    requires Valid(st) && st.denominations == [5, 25, 1, 10]
    ensures DescendingView(st) == [25, 10, 5, 1]
  {
    SortStation0();
  }

  lemma SortTwo()
    ensures SortDescending([1, 10]) == [10, 1]
  {
    assert [1, 10][1..] == [10];
    assert [10][1..] == [];
  }

  lemma SortThree()
    ensures SortDescending([25, 1, 10]) == [25, 10, 1]
  {
    SortTwo();
    var s := [25, 1, 10];
    assert s[0] == 25 && s[1..] == [1, 10];
    assert Insert(25, [10, 1]) == [25, 10, 1];
  }

  lemma SortStation0()
    ensures SortDescending([5, 25, 1, 10]) == [25, 10, 5, 1]
  {
    SortThree();
    InsertFive();
    var s := [5, 25, 1, 10];
    assert s[1..] == [25, 1, 10] && s[0] == 5;
    assert SortDescending(s) == Insert(5, SortDescending([25, 1, 10]));
  }

  lemma Largest30(st: Station)
    requires Valid(st) && st.denominations == [5, 25, 1, 10] && Stock(st, 25) > 0
    ensures LargestUsable(st, 30, 25)
  {
    forall x | x in st.denominations ensures x <= 25 {
      assert x in [5, 25, 1, 10];
    }
  }

  lemma Largest20(st: Station)
    requires Valid(st) && st.denominations == [5, 25, 1, 10]
    requires Stock(st, 10) == 0 && Stock(st, 5) > 0
    ensures LargestUsable(st, 20, 5)
  {
    forall x | x in st.denominations && x <= 20 && Stock(st, x) > 0 ensures x <= 5 {
      assert x in [5, 25, 1, 10];
    }
  }

  /** Change of 30 when 25 is the largest usable coin and two are in stock: one 25 is
      emitted and the pass stops with 5 still owed. */
  lemma AsWrittenStopsAt25(st: Station)
    requires Valid(st) && LargestUsable(st, 30, 25) && Stock(st, 25) == 2
    ensures var r := DispenseAccurateChange(st, 30, AsWritten);
      r.Done? && !r.value && r.state.emitted == [25] && Stock(r.state.station, 25) == 1
      && r.state.remaining == 5
  {
    AsWrittenSettles(st, 30, 25);
    AsWrittenLeavesRest(st, 30, 25);
    OneTwentyFive();
  }

  lemma OneTwentyFive()
    ensures Emissions(30, 25, 2) == 1 && Repeat(25, 1) == [25] && 30 % 25 != 0
  {
    DivUnique(30, 25, 1, 5);
  }

  lemma ThreeFives()
    ensures Emissions(20, 5, 3) == 3 && Repeat(5, 3) == [5, 5, 5] && 20 / 5 > 3
  {
    DivUnique(20, 5, 4, 0);
  }

  /** Change of 20 when 5 is the largest usable coin and three are in stock: three 5s are
      emitted and the pass stops with 5 still owed. */
  lemma AsWrittenStopsAt5(st: Station)
    requires Valid(st) && LargestUsable(st, 20, 5) && Stock(st, 5) == 3
    ensures var r := DispenseAccurateChange(st, 20, AsWritten);
      r.Done? && !r.value && r.state.emitted == [5, 5, 5] && Stock(r.state.station, 5) == 0
      && r.state.remaining == 5
      && (1 in st.dispensers ==> 1 in r.state.station.dispensers && Stock(r.state.station, 1) == Stock(st, 1))
  {
    AsWrittenSettles(st, 20, 5);
    AsWrittenLeavesRest(st, 20, 5);
    ThreeFives();
  }

  /** Change of 30, as written: one 25 is emitted and the pass stops with 5 still owed, so
      the call fails although 25 + 5 was in stock. */
  lemma AsWrittenChange30(st: Station)
    requires st == Station0()
    ensures var r := DispenseAccurateChange(st, 30, AsWritten);
      r.Done? && !r.value && r.state.emitted == [25] && Stock(r.state.station, 25) == 1
      && r.state.remaining == 5
  {
    Largest30(st);
    AsWrittenStopsAt25(st);
  }

  /** Change of 20, as written: 25 does not fit and 10 is out of stock, so three 5s are
      emitted and the pass stops with 5 still owed, although 1-cent coins were in stock. */
  lemma AsWrittenChange20(st: Station)
    requires st == Station0()
    ensures var r := DispenseAccurateChange(st, 20, AsWritten);
      r.Done? && !r.value && r.state.emitted == [5, 5, 5] && Stock(r.state.station, 5) == 0
      && r.state.remaining == 5 && 1 in r.state.station.dispensers && Stock(r.state.station, 1) == 30
  {
    Largest20(st);
    AsWrittenStopsAt5(st);
  }

  /** The same two amounts, corrected: both are settled exactly. */
  lemma CorrectedChange30And20(st: Station)
    requires st == Station0()
    ensures var r := DispenseAccurateChange(st, 30, Corrected);
      r.Done? && r.value && Sum(r.state.emitted) == 30
    ensures var r := DispenseAccurateChange(st, 20, Corrected);
      r.Done? && r.value && Sum(r.state.emitted) == 20
  {
    assert 1 in st.denominations && Stock(st, 1) == 30;
    CorrectedSettlesWithUnitCoins(st, 30);
    CorrectedSettlesWithUnitCoins(st, 20);
  }

  /** Corrected, change of 30 visited as 25, 10, 5, 1 with a 25 and a 5 in stock: one 25
      and then one 5 are emitted and nothing is owed, however few 1-cent coins there are. */
  lemma CorrectedTakes25Then5(st: Station)
    requires Valid(st) && DescendingView(st) == [25, 10, 5, 1]
    requires 25 in st.dispensers && 5 in st.dispensers
    requires Stock(st, 25) > 0 && Stock(st, 5) > 0
    ensures var r := DispenseAccurateChange(st, 30, Corrected);
      && r.Done? && r.value && r.state.emitted == [25, 5]
      && Stock(r.state.station, 25) == Stock(st, 25) - 1
      && Stock(r.state.station, 5) == Stock(st, 5) - 1
  {
    CorrectedPass30(st);
    TakeTwentyFiveFive(Pass(st, 0, 30, []));
  }

  lemma CorrectedPass30(st: Station)
    requires Valid(st) && DescendingView(st) == [25, 10, 5, 1]
    requires 25 in st.dispensers && 5 in st.dispensers
    requires Stock(st, 25) > 0 && Stock(st, 5) > 0
    ensures 5 in Take(Pass(st, 0, 30, []), 25).station.dispensers
    ensures Stock(Take(Pass(st, 0, 30, []), 25).station, 5) > 0
    ensures Take(Take(Pass(st, 0, 30, []), 25), 5).remaining == 0
    ensures DispenseAccurateChange(st, 30, Corrected)
         == Done(Take(Take(Pass(st, 0, 30, []), 25), 5), true)
  {
    var ds := DescendingView(st);
    var p0 := Pass(st, 0, 30, []);
    assert 25 in ds;
    GreedyCase(st, 30, Corrected);
    assert Greedy(p0, ds, Corrected) == GreedyFull(p0, ds);
    FullPass25Then5(p0, ds);
  }

  /** The full pass over 25, 10, 5, 1 from 30 owed takes one 25 and then one 5. */
  lemma FullPass25Then5(p0: Pass, ds: seq<int>)
    requires ds == [25, 10, 5, 1]
    requires Dispensable(p0.station, ds) && p0.remaining == 30
    requires 25 in p0.station.dispensers && 5 in p0.station.dispensers
    requires Stock(p0.station, 25) > 0 && Stock(p0.station, 5) > 0
    ensures 5 in Take(p0, 25).station.dispensers && Stock(Take(p0, 25).station, 5) > 0
    ensures GreedyFull(p0, ds) == Take(Take(p0, 25), 5)
  {
    PassOver25And10(p0, ds);
    assert ds[2..][0] == 5;
    PassOver5And1(Take(p0, 25), ds[2..]);
  }

  /** From 30 owed, one 25 is taken and the 10 does not fit what is left. */
  lemma PassOver25And10(p0: Pass, ds: seq<int>)
    requires ds == [25, 10, 5, 1]
    requires Dispensable(p0.station, ds) && p0.remaining == 30
    requires 25 in p0.station.dispensers && Stock(p0.station, 25) > 0
    ensures Dispensable(Take(p0, 25).station, ds[2..])
    ensures GreedyFull(p0, ds) == GreedyFull(Take(p0, 25), ds[2..])
  {
    DrainOnce(p0, 25);
    var p1 := Take(p0, 25);
    GreedyFullStep(p0, ds);
    assert ds[1..] == [10, 5, 1] && ds[1..][1..] == ds[2..];
    DrainIdle(p1, 10);
    GreedyFullStep(p1, ds[1..]);
  }

  /** With 5 owed, one 5 is taken and nothing is left for the 1. */
  lemma PassOver5And1(p1: Pass, ds: seq<int>)
    requires ds == [5, 1]
    requires Dispensable(p1.station, ds) && p1.remaining == 5
    requires 5 in p1.station.dispensers && Stock(p1.station, 5) > 0
    ensures GreedyFull(p1, ds) == Take(p1, 5)
  {
    DrainOnce(p1, 5);
    var p2 := Take(p1, 5);
    GreedyFullStep(p1, ds);
    assert ds[1..] == [1] && ds[1..][1..] == [];
    DrainIdle(p2, 1);
    GreedyFullStep(p2, ds[1..]);
  }

  /** One 25 and then one 5 from 30 owed settle it, and each dispenser gives one coin. */
  lemma TakeTwentyFiveFive(p0: Pass)
    requires p0.remaining == 30 && p0.emitted == []
    requires 25 in p0.station.dispensers && Stock(p0.station, 25) > 0
    requires 5 in Take(p0, 25).station.dispensers && Stock(Take(p0, 25).station, 5) > 0
    ensures var q := Take(Take(p0, 25), 5);
      && q.remaining == 0 && q.emitted == [25, 5]
      && Stock(q.station, 25) == Stock(p0.station, 25) - 1
      && Stock(q.station, 5) == Stock(p0.station, 5) - 1
  {
    assert [25] + [5] == [25, 5];
  }

  /** Change of 30 with only ten 1-cent coins in stock, corrected: the pass goes on past
      the 25 to the 5, so a 25 and a 5 are emitted, leaving one 25 and two 5s. As written
      the same call stops after the 25 and fails (`AsWrittenChange30`). */
  lemma CorrectedChange30(st: Station)
    requires st == Station1()
    ensures var r := DispenseAccurateChange(st, 30, Corrected);
      && r.Done? && r.value && r.state.emitted == [25, 5]
      && Stock(r.state.station, 25) == 1 && Stock(r.state.station, 5) == 2
  {
    VisitOrder(st);
    CorrectedTakes25Then5(st);
  }

  /** A dollar coin tendered against a total cost of one dollar: as written the payment fails
      although storage received the coin; corrected it succeeds. */
  lemma DollarPayment(h: Handler)
    requires h == Handler(Station0(), 100, 0, 0)
    ensures var r := Tender(h, [Coin(100)], AsWritten);
      r.Done? && !r.value && r.state.station.storageCount == 1
    ensures var r := Tender(h, [Coin(100)], Corrected);
      r.Done? && r.value && r.state.station.storageCount == 1
  {
    assert Value([Coin(100)]) == 100;
    AsWrittenKeepsCoins(h, [Coin(100)]);
    CorrectedPaysExactly(h, [Coin(100)]);
  }
}
